=== FILE: README.md ===
# GPU passthrough setup: a Dafny model of the reconciliation core

This project models the decision and string-rewriting core of the
`gpu-passthrough-setup` tool, which brings a Linux hypervisor host into a
state where a GPU can be passed through to virtual machines. Every probe of
the host becomes an input: `lscpu`, `lspci`, `efibootmgr`, the files read,
and whether a shell command fails. Every part of the core becomes a pure
function over strings and sequences of lines.

- **Condition evaluation** (`Preconditions`). A declared condition passes
  when its probe exits zero and the stripped output meets the truthy
  expectations. Checking is fail-fast: the first failing condition raises
  its failure message.
- **Hardware-text classification** (`HardwareInfo`). This covers:
  - the CPU and board fields taken from `key: value` lines;
  - the vendor chosen by keyword precedence;
  - the PCI bus root taken from the first token of the VGA line;
  - the device codes of the `lspci -nn` lines on that bus.
- **GRUB command-line rewrite** (`GrubConfig`). The first
  `GRUB_CMDLINE_LINUX_DEFAULT` line gets the IOMMU options appended. This
  happens only when the options are missing, so the rewrite is idempotent.
- **Bootloader classification** (`Bootloader`). The `efibootmgr -v` output
  maps to one of four labels or an error.
- **VFIO module append** (`Vfio`). The required modules missing from
  `/etc/modules` are appended.
- **Command builders** (`Commands`). These build the `vfio.conf` writer and
  the per-vendor blacklist and unblacklist commands. They are shared by
  both configurator variants, whose builders are textually identical.
  Their effect on the blacklist file is modelled as line edits, so the
  unblacklist/blacklist round trip can be stated.
- **Planning and execution** (`Plans`, `CommandExecutor`). Each planning
  branch does one of three things:
  - The GRUB branch backs up and rewrites the GRUB file at once. It then
    registers the `ModifyGrub` command with `RestoreGrub` as its rollback.
  - The VFIO branch appends the missing modules at once and registers
    nothing.
  - The `vfio.conf` and driver-blacklist branches act on nothing at once.
    Each registers one command and one rollback.

  The commands are either logged (dry run) or executed until one fails.
  Any exception runs every registered rollback in registration order,
  swallowing rollback failures, and the original exception is re-raised.
- **The two configurators**.
  - `Configurator` is the packaged variant (`src/`). It walks the declared
    desired-state conditions through an `elif` chain and appends
    `update-initramfs -u`.
  - `RootConfigurator` is the top-level variant. It applies six
    independent `if` tests on exact precondition descriptions, followed by
    the (empty) bootloader-specific commands.

`Types` holds the shared `Option`, `Result`, `Error`, `Vendor` and `Cmd`
types. `Strings` models the Python string operations the core relies on:
`strip`, `split`, `rsplit`, `splitlines`, `lower`, `join` and `in`.

## Model

| member | source | states |
|---|---|---|
| Strings.Strip | preconditions.py:42 | `str.strip()`: the result is a contiguous slice `s[i..j]` of the input, everything before `i` and from `j` on is Python whitespace, and the result neither starts nor ends with whitespace |
| Strings.StripPadded | grub_config.py:40 | stripping text whose ends are not whitespace, followed by whitespace only (a line's newline), gives back that text |
| Strings.Lower | hardware_info.py:63 | `str.lower()` keeps the length and lower-cases each character in place |
| Strings.Split | hardware_info.py:41-43 | `str.split(sep)` always yields at least one piece |
| Strings.SplitPieces | hardware_info.py:43 | no piece of `split(c)` contains the separator |
| Strings.JoinSplit | hardware_info.py:43 | joining the pieces of `split(c)` with `c` gives back the original text |
| Strings.SplitJoin | src/system_configurator.py:122 | splitting a `','.join` of separator-free pieces recovers the pieces |
| Strings.ContainsInfix | src/vfio.py:17 | Python `in`: a text contains every text it is built around |
| Strings.NotContainsByChar | src/vfio.py:17 | Python `in`: a text lacking one character of a candidate does not contain it |
| Strings.AfterLastSuffix | hardware_info.py:81 | `s.split(c)[-1]` is a suffix of `s` that contains no `c`; it is the whole of `s` iff `c` does not occur, and is otherwise preceded by a `c` |
| Strings.SplitLast | hardware_info.py:81 | the last piece of `split(c)` is the text after the last `c` |
| Strings.AfterLastOf | hardware_info.py:81 | the text after the last `c` of `a + c + b`, with no `c` in `b`, is `b` |
| Strings.BeforeLast | hardware_info.py:78 | `rsplit('.', 1)[0]`: `s` is this prefix, a dot and the dot-free tail; `s` is unchanged when it has no dot |
| Strings.FirstWord | hardware_info.py:78 | `split()[0]`: absent exactly when the text is all whitespace; otherwise a non-empty run without whitespace that starts after only whitespace and ends at the end of the text or at whitespace |
| Strings.SplitLinesAppend | src/vfio.py:13 | `splitlines()` of two texts, the first ending in a line break, is the concatenation of their line lists |
| Strings.SplitLinesTerminate | src/vfio.py:13 | a trailing newline added to text that lacks one adds no line |
| Strings.SplitLinesSingle | src/vfio.py:13 | text without a line break is one line |
| Strings.LineEndNone | src/vfio.py:13 | the first line ends at the end of the text iff the text holds no line break |
| Strings.SplitLinesClean | src/vfio.py:13 | `splitlines()` yields no line at all iff the text is empty, and no line holds a line break |
| CommandExecutor.Execute | command_executor.py:6-14 | executing a list runs a prefix of it, in order |
| CommandExecutor.ExecuteStopsAtFirstFailure | command_executor.py:9-14 | a run fails iff some command fails; it then stops at the first failing one, and every command before it succeeded; otherwise every command ran |
| CommandExecutor.Rollback | command_executor.py:17-24 | every registered rollback runs once, in registration order, and exactly the failing ones are logged as failed, without stopping the pass |
| Preconditions.Evaluate | preconditions.py:33-50 | a condition passes iff the probe exits zero and each truthy expectation (exact output, contained substring) holds on the stripped output; a failure carries the condition's message and logs stderr (or "No stderr output") exactly when the probe exited non-zero |
| Preconditions.EmptyExpectationIgnored | preconditions.py:43-45 | an empty expected output is the same as none, and so is an empty expected substring, each on its own |
| Preconditions.CheckCommandPreconditions | preconditions.py:31-50 | the conditions probed are a prefix of the declared ones, in order |
| Preconditions.SucceedsIffAllPass | preconditions.py:31-50 | checking succeeds iff every condition passes, and then every condition was probed |
| Preconditions.FailFast | preconditions.py:33-50 | a failing check stops at its first failing condition, raises that condition's failure message, and probes nothing after it |
| Preconditions.Check | preconditions.py:18-29 | `check()` raises the first precondition failure, and only when every precondition passes does it return what hardware detection returns |
| Preconditions.CheckIgnoresHardwareOnFailure | preconditions.py:18-29 | once some precondition fails, the hardware facts play no part in the result |
| Preconditions.CompareStates | preconditions.py:52-69 | `compare_states()` raises iff some desired-state condition fails, and never returns a discrepancy list |
| Preconditions.CompareStatesNeverLists | preconditions.py:52-69 | `compare_states()` returns `None` iff every desired-state condition passes |
| HardwareInfo.FirstLineWith | hardware_info.py:41-44 | the loop stops at the first line containing the key, and finds none iff no line contains it |
| HardwareInfo.ParseField | hardware_info.py:39-53 | the detail is always the whole probe output |
| HardwareInfo.ParseFieldModel | hardware_info.py:39-53 | the model is absent iff no line contains the key; otherwise it is the stripped second `:`-field of the first such line |
| HardwareInfo.FieldHasSeparator | hardware_info.py:43 | a line containing a key with a colon has a second `:`-field, so the index cannot fail |
| HardwareInfo.ClassifyVendor | hardware_info.py:63-71 | case-insensitive vendor precedence: intel, then amd or "advanced micro devices", then nvidia; none iff no keyword occurs |
| HardwareInfo.BusRoot | hardware_info.py:78 | a token without a dot is its own bus root; otherwise the root is the token minus its last `.suffix` |
| HardwareInfo.DeviceCode | hardware_info.py:81 | a device code is no longer than its line and holds no bracket |
| HardwareInfo.DeviceCodeBetween | hardware_info.py:81 | the code of a line `p[c]q`, where `c]q` has no `[` and `c` no `]`, is the text between that last `[` and the next `]`, stripped |
| HardwareInfo.CollectCodes | hardware_info.py:79-83 | there are never more codes than `lspci` lines |
| HardwareInfo.CollectCodesFails | hardware_info.py:79-82 | code collection raises iff some line is non-empty but all whitespace (`split()[0]` has no token) |
| HardwareInfo.LineCode | hardware_info.py:80-82 | one line raises iff it is non-empty whitespace; it contributes nothing iff it is empty or its bus root differs from the VGA device's; otherwise it contributes its device code |
| HardwareInfo.MatchingLine | hardware_info.py:79-83 | a non-empty line on the VGA device's bus puts its device code in front of the codes of the lines after it |
| HardwareInfo.CollectCodesAppend | hardware_info.py:79-83 | codes keep `lspci` line order: the codes of concatenated outputs are the concatenated codes |
| HardwareInfo.ForeignLine | hardware_info.py:80 | a line on another bus contributes nothing |
| HardwareInfo.ParseGpuInfo | hardware_info.py:55-83 | empty VGA text keeps the defaults; fewer than three `:`-fields is an `IndexError`; an unknown vendor is `ConfigurationError("Unknown GPU type detected.")`; otherwise the GPU is present, with the stripped third field as model and the classified vendor, and it succeeds iff code collection on the VGA line's bus root succeeds, its codes being exactly the collected ones |
| HardwareInfo.ColonFieldsHaveWord | hardware_info.py:59-78 | a VGA line with a second `:`-field has a first token, so `split()[0]` cannot fail once the model is read |
| HardwareInfo.LogHardwareInfo | hardware_info.py:13-37 | a failed probe is "Hardware information retrieval failed."; otherwise the board, CPU and GPU parsers decide, and the call succeeds iff the GPU parse does |
| GrubConfig.RequiredSettings | grub_config.py:25-31 | lower-cased "amd" gives `quiet iommu=pt`; otherwise "intel" gives `quiet intel_iommu=on iommu=pt`; otherwise the unsupported-CPU error |
| GrubConfig.FirstCmdline | grub_config.py:37-38 | the inspected line is the first that starts with `GRUB_CMDLINE_LINUX_DEFAULT`, and there is none iff no line does |
| GrubConfig.AfterFirstEquals | grub_config.py:40 | `split('=', 1)[1]` is absent iff the line has no `=`; otherwise it is the text after the first `=` |
| GrubConfig.RewriteLine | grub_config.py:39-42 | the key line is kept iff it already contains the options; it raises `IndexError` iff it lacks both the options and an `=`; otherwise the new line starts with the key and contains the options |
| GrubConfig.NewCmdlineShape | grub_config.py:41-42 | the new line starts with the key and contains the required options |
| GrubConfig.RewriteCmdline | grub_config.py:33-44 | the rewrite keeps the number of lines |
| GrubConfig.RewriteUnmodified | grub_config.py:39-48 | when nothing is modified the lines are unchanged, and either no key line exists or the first one already contains the options |
| GrubConfig.RewriteModified | grub_config.py:37-44 | a modification changes only the first key line, which lacked the options, into a line that starts with the key and contains them |
| GrubConfig.RewriteFails | grub_config.py:39-40 | the rewrite fails only on a first key line that lacks both the options and an `=`, with `IndexError` |
| GrubConfig.RewriteIdempotent | grub_config.py:37-44 | rewriting the rewritten lines succeeds and modifies nothing |
| GrubConfig.FirstCmdlineAt | grub_config.py:37-38 | the first line starting with the key is the one found |
| GrubConfig.RewriteKeepsValue | grub_config.py:40-42 | `GRUB_CMDLINE_LINUX_DEFAULT="<v>"` followed by whitespace such as the line's `\n`, lacking the options, becomes `GRUB_CMDLINE_LINUX_DEFAULT="<v> <required>"`, for any value `v`, empty included, that has no quote at either end |
| GrubConfig.ValueAfterKey | grub_config.py:40 | `split('=', 1)[1]` of the key line is everything after `GRUB_CMDLINE_LINUX_DEFAULT=` |
| GrubConfig.StripOneLayer | grub_config.py:40 | `strip('"')` of a quoted value whose ends are not quotes recovers the value |
| GrubConfig.ModifyGrubConfig | grub_config.py:21-57 | every failure is "Failed to modify /etc/default/grub"; the file is written only with the rewritten lines and only after a modification, and `update-grub` runs only after a write; the call succeeds iff the CPU is supported, the file is read, the rewrite succeeds, and (after a modification) the write and `update-grub` succeed |
| GrubConfig.ModifyTwiceWritesOnce | grub_config.py:37-48 | a second call on the file a first call wrote neither writes nor runs `update-grub` |
| Bootloader.Classify | bootloader.py:11-29 | each label holds iff its test and no earlier one matches: the case-sensitive "EFI variables are not supported" first, then "proxmox" with grubx64, then with shimx64, then systemd-bootx64; anything else is the undetermined-bootloader error |
| Bootloader.GrubBeforeShim | bootloader.py:17-23 | Proxmox output naming both loaders is GRUB in UEFI mode |
| Bootloader.DetermineBootloaderAsWritten | bootloader.py:10-33 | as written, a failed probe escapes as `AttributeError`; a successful one is classified |
| Bootloader.ProbeFailureEscapesAsWritten | bootloader.py:31-33 | the failure of a failed probe is not a `ConfigurationError` |
| Bootloader.DetermineBootloader | bootloader.py:10-33 | with the handler reaching its `raise`, a failed probe is a `ConfigurationError`; a successful one is classified |
| Bootloader.DetermineBootloaderTotal | bootloader.py:13-33 | every result is one of the four labels or a `ConfigurationError` |
| Vfio.Missing | src/vfio.py:16-18 | a module is appended iff it is required and not an exact line of the file |
| Vfio.TerminatedLines | src/vfio.py:18 | the appended text splits back into exactly the appended modules |
| Vfio.MissingCovered | src/vfio.py:16-18 | after the missing modules are added, none is missing |
| Vfio.MissingNone | src/vfio.py:17 | when every required module is present, nothing is appended |
| Vfio.CommentedLineNotPresent | src/vfio.py:13-17 | `vfio_pci # x` does not count as `vfio_pci` |
| Vfio.EnsureVfioModulesAsWritten | src/vfio.py:11-24 | the call fails iff the read or the append fails, with "Failed to ensure VFIO modules."; otherwise the old text is kept as a prefix and the missing modules follow |
| Vfio.AppendKeepsLines | src/vfio.py:12-18 | after text ending in a line break, the file's lines are the old lines followed by the missing modules |
| Vfio.SecondRunAsWrittenAddsNothing | src/vfio.py:12-18 | if the text read is empty or ends in a line break, a second run appends nothing |
| Vfio.GluesLastLine | src/vfio.py:12-18 | after an unterminated last line, the first appended module is glued onto that line |
| Vfio.AsWrittenLosesUnterminatedLine | src/vfio.py:12-18 | a file holding just `vfio_pci`, unterminated, loses that line when `vfio` is glued onto it |
| Vfio.EnsureVfioModules | src/vfio.py:11-24 | with the text terminated first, the call fails iff the read or the append fails; otherwise the old text is kept as a prefix |
| Vfio.EnsureKeepsLines | src/vfio.py:12-18 | the corrected run keeps every line of the file and adds exactly the missing modules after them, in required order, for any text |
| Vfio.SecondRunAddsNothing | src/vfio.py:12-18 | after the corrected run, a second run appends nothing, whatever the file ended with |
| Vfio.OnceTerminated | src/vfio.py:15-18 | the corrected run leaves the file ending in a line break |
| Commands.CreateVfioConf | src/system_configurator.py:120-123 | the command is the fixed `vfio.conf` head, then the ids joined by `,`, then the fixed tail |
| Commands.VfioConfRoundTrip | src/system_configurator.py:120-123 | a non-empty list of comma-free PCI ids can be read back from the `vfio.conf` command that embeds them |
| Commands.VfioConfExample | src/system_configurator.py:120-123 | the ids of the NVIDIA example are joined by `,` between the fixed head and tail |
| Commands.RenderAppend | src/system_configurator.py:125-146 | each part of `blacklist_drivers` is `echo "blacklist <module>" >> /etc/modprobe.d/blacklist.conf` |
| Commands.RenderDelete | src/system_configurator.py:148-169 | each part of `unblacklist_drivers` is `sed -i '/blacklist <module>/d' /etc/modprobe.d/blacklist.conf` |
| Commands.DriverModules | src/system_configurator.py:125-146 | a vendor has driver modules iff the GPU type is amd, nvidia or intel, and no module is listed twice |
| Commands.BlacklistDrivers | system_configurator.py:108-129 | the blacklist command is empty iff the GPU type is not amd, nvidia or intel |
| Commands.UnblacklistDrivers | system_configurator.py:131-152 | the unblacklist command is empty iff the GPU type is not amd, nvidia or intel |
| Commands.ApplyAppends | src/system_configurator.py:125-146 | the blacklist command appends one `blacklist <module>` line per module, in order, after the file |
| Commands.ApplyDeletes | src/system_configurator.py:148-169 | the unblacklist command deletes every line matching any of the vendor's patterns and keeps the rest in order |
| Commands.UnblacklistUndoesBlacklist | src/system_configurator.py:125-169 | unblacklisting after blacklisting removes every added line; a file without matching lines is restored exactly |
| Commands.NvidiaRollbackDeletesForeignEntry | src/system_configurator.py:158-159 | the NVIDIA rollback's `nvidia` pattern also deletes a `blacklist nvidia_uvm` line it never added |
| Plans.EntriesOf | src/system_configurator.py:63-86 | each fired branch contributes exactly one plan entry |
| Plans.Perform | src/system_configurator.py:64-70 | a branch's immediate actions run in order until one raises; they raise iff some action fails, with the error of the first failing one |
| Plans.FirstFailure | src/system_configurator.py:63-86 | the first branch whose immediate action fails; all branches before it succeed |
| Plans.PlanEntries | src/system_configurator.py:63-86 | without an error, the plan holds every branch's command and rollback and every immediate action was performed; with one, the last action performed failed and its error is the one raised |
| Plans.PlanEntriesStops | src/system_configurator.py:63-86 | planning raises iff some branch fails, with that branch's error; the registered lists are exactly those of the branches before it; otherwise every action was performed |
| Plans.PlanEntriesComplete | src/system_configurator.py:63-86 | when every branch succeeds, planning registers all their commands and rollbacks in order |
| Plans.Abort | src/system_configurator.py:50-55 | an exception runs every registered rollback, in registration order, and re-raises the original error |
| Plans.Finish | src/system_configurator.py:36-55 | a dry run logs every command in plan order and executes none; a live run executes a prefix; the call raises iff a post-run check raises or (live) some command fails, and then every registered rollback runs; otherwise it is configured with no rollback, and a live run executed every command |
| Plans.LiveFailureStops | src/system_configurator.py:39-55 | a live run stops at the first failing command, re-raises its failure and rolls back everything registered |
| Plans.DryRunRollsBack | src/system_configurator.py:36-55 | a dry run executes nothing, yet a post-run check that raises still rolls back everything registered |
| Configurator.Branch | src/system_configurator.py:63-86 | the `elif` chain: each of the six branches fires iff its own test holds and every earlier test fails (GRUB phrase; VFIO phrase; kvm.conf phrase on NVIDIA; AMD, NVIDIA and Intel phrases on their vendor); none fires iff all six tests fail |
| Configurator.FiredBy | src/system_configurator.py:63 | a declared condition fires at most one branch; it fires one iff it is a discrepancy and its chain selects a branch, and then it is that branch |
| Configurator.Selected | src/system_configurator.py:60-63 | the `elif` chain fires at most one branch per declared condition, so no more branches fire than conditions are declared |
| Configurator.SelectedNone | src/system_configurator.py:60-63 | no discrepancy, no branch |
| Configurator.SelectedAppend | src/system_configurator.py:60-63 | branches fire in declaration order: a concatenated declaration fires as its halves do, one after the other |
| Configurator.SelectedByMembership | src/system_configurator.py:60-63 | only membership in the discrepancies matters, not their order or repetition |
| Configurator.PlannedEntries | src/system_configurator.py:60-86 | planning yields no more entries than conditions are declared |
| Configurator.KvmBranch | src/system_configurator.py:71-74 | the kvm.conf condition plans `vfio.conf` on an NVIDIA host and nothing on any other |
| Configurator.ConfigureSystem | src/system_configurator.py:25-55 | the outcome is `PreconditionsUnmet` iff `check()` returns a non-empty list of unmet preconditions; the call never reports "already configured"; a dry run executes nothing; success rolls nothing back; an exception rolls back everything registered |
| Configurator.UnmetBlocksEverything | src/system_configurator.py:31-49 | an unmet precondition blocks everything: nothing is performed, planned, listed, executed or rolled back |
| Configurator.PlanIsFiredBranches | src/system_configurator.py:32-34 | the plan is the fired branches' commands with `update-initramfs -u` last, and no rollback for it |
| Configurator.NoDiscrepancyOnlyRamfs | src/system_configurator.py:184-187 | with no discrepancy the plan is exactly `update-initramfs -u` |
| Configurator.DryRunStillPerforms | src/system_configurator.py:32-37 | a dry run performs the same immediate actions and builds the same lists as a live run, but executes nothing |
| RootConfigurator.Fired | system_configurator.py:24-46 | at most six branches fire, and they fire in source order: GRUB, VFIO, kvm.conf, AMD, NVIDIA, Intel |
| RootConfigurator.FiredExactly | system_configurator.py:24-34 | the GRUB, VFIO and kvm.conf branches fire iff their exact description is unmet, the last only on an NVIDIA host |
| RootConfigurator.FiredDrivers | system_configurator.py:35-46 | a driver branch fires iff its exact description is unmet and the GPU is of its vendor |
| RootConfigurator.AllUnmetFires | system_configurator.py:24-46 | for any detected vendor, with all six checks unmet, the GRUB and VFIO branches fire, then kvm.conf only on NVIDIA, then that vendor's driver branch alone |
| RootConfigurator.ExactDescriptionsOnly | system_configurator.py:24 | membership is exact: a bare phrase without "Check if " fires nothing |
| RootConfigurator.BootloaderCommands | system_configurator.py:71-101 | every bootloader name, known or not, contributes no command |
| RootConfigurator.BootloaderAddsNothing | system_configurator.py:48-49 | after planning, the queued commands are exactly the fired branches' commands, with no initramfs step; an undetermined bootloader raises before anything is executed |
| RootConfigurator.Proceed | system_configurator.py:48-69 | with the bootloader probe failure raised as `ConfigurationError`, a planning error or a bootloader error is raised with everything registered rolled back; the bootloader step leaves the plan unchanged |
| RootConfigurator.ConfigureSystem | system_configurator.py:18-69 | with the pair unpacked and the bootloader probe failure raised as `ConfigurationError`, the outcome is `AlreadyConfigured` iff `check()` returns an empty list of unmet preconditions, and never `PreconditionsUnmet`; a dry run executes nothing; success rolls nothing back; an exception rolls back everything registered |
| RootConfigurator.AllMetDoesNothing | system_configurator.py:62-63 | with every precondition met, nothing is performed, planned or run |
| RootConfigurator.CorrectedPlansGrub | system_configurator.py:21-28 | with the pair unpacked, an unmet GRUB check on an AMD host plans backup, rewrite, `ModifyGrub` and `RestoreGrub`, and configures iff that command succeeds |
| RootConfigurator.LiveGrubRunRaises | system_configurator.py:27-69 | the queued GRUB command is `modify_grub_config()`'s `None`, which raises when executed: a live run of the GRUB branch executes only that command, re-raises its failure and rolls back `RestoreGrub`, so it never configures |
| RootConfigurator.GrubBranchAsWritten | system_configurator.py:24-28 | as written, the GRUB branch always raises and registers no rollback: a failed backup raises its error, and otherwise `restore_grub_config` raises `AttributeError` after the backup and rewrite, with only `ModifyGrub` queued |
| RootConfigurator.GrubBranchMissingRestore | system_configurator.py:24-28 | when backup and rewrite succeed, the as-written branch raises `AttributeError` with no rollback, while the corrected branch registers `RestoreGrub` and raises nothing |
| RootConfigurator.ConfigureSystemAsWritten | system_configurator.py:21 | as written, unpacking the hardware dictionary raises `ValueError` before anything is planned, performed or run |
| RootConfigurator.AsWrittenNeverConfigures | system_configurator.py:21 | as written, even a run whose preconditions all pass never configures anything |

## Left out

- All I/O is left out: subprocesses, file reads and writes, `dmesg`, and logging. Probe outputs and file texts are parameters, with `None` for a probe that exits non-zero. Failure oracles (`fails`, `immFails`, `writeFails`, `updateGrubFails`, `appendFails`) stand for commands and writes that raise.
- `check_iommu_enabled()` and the second `compare_states()` after execution are external probes. Their only effect on the core, an exception that triggers rollback, is the `postCheck` input.
- GRUB backup and restore are left out. The GRUB branch is the abstract pair `ModifyGrub` / `RestoreGrub`. `modify_grub_config()` returns `None`, which the source appends as the command. The root `GrubConfig` class (grub_config.py:6-59) does not define `restore_grub_config()`; the call is listed under Findings, and the rest of the model uses the corrected branch that registers `RestoreGrub`. The backup copy is the `BackupGrub` immediate action, with its failure message.
- `src/preconditions.py`, `src/grub_config.py`, `src/command_executor.py` and `src/logger.py` are not part of this model. In the packaged variant, what `check()` and `compare_states()` return is an input, as are the declared descriptions.
- `preconditions.check_file_contents` is left out. It is dead code that uses `os` without importing it.
- `gpu_passthrough.py`, `main.py` and `logger.py` are left out: a legacy duplicate, the entry point and logging setup.
- Strings.Lower: lower-cases ASCII letters only, because Python's full Unicode case mapping is not modelled.
- `readlines()` in `modify_grub_config` is left out. The GRUB file is taken as its sequence of lines, each still carrying its newline.
- Commands.RenderAppend: states each ` && `-joined part of the blacklist command separately rather than the whole joined string, which follows from `Join`; Commands.RenderDelete does the same for the unblacklist command.
- RootConfigurator.CorrectedPlansGrub: the queued GRUB command is `modify_grub_config()`'s `None` (grub_config.py:21-57 has no `return`). Executing `None` raises `TypeError` in `subprocess.run`, which the `CalledProcessError` handler at command_executor.py:12 does not catch. So in a live run this command always raises, and `fails(ModifyGrub)` stands for that exception; RootConfigurator.LiveGrubRunRaises states the resulting run. The model reports it as the command's failure rather than as `TypeError`. The corrected branch also takes `RestoreGrub` to be a shell command whose failure `rollback` swallows.
- Commands.UnblacklistUndoesBlacklist: restores the file exactly only when every line of it, including the last, ends in a newline, because the `>>` append glues the first `blacklist` line onto an unterminated last line, and the model treats the file as a sequence of whole lines.
- Commands.VfioConfExample: states the command as the fixed head and tail constants around the joined ids rather than as one literal string.
- The model follows the code:
  - Preconditions are fail-fast, not collected.
  - Rollbacks are registered at planning time and all run in registration order, including those of commands never executed, not in reverse application order.
  - An exception in a post-run check triggers rollback, even in a dry run.
  - A dry run still performs the GRUB backup and rewrite and the VFIO append.
  - `compare_states()` returns `None` rather than a discrepancy list.
  - `check()` returns only the hardware dictionary.

## Findings

| source | as written | input that shows it | evidently intended | confidence | as-written member | corrected member |
|---|---|---|---|---|---|---|
| bootloader.py:31-33 | the handler calls `e.stderr.decode()`, but `check_output` was not asked to capture stderr, so `e.stderr` is `None` | `efibootmgr -v` exits non-zero | a failed probe raises `ConfigurationError` | high, not executed | Bootloader.DetermineBootloaderAsWritten, Bootloader.ProbeFailureEscapesAsWritten | Bootloader.DetermineBootloader, Bootloader.DetermineBootloaderTotal |
| src/vfio.py:12-18 | modules are appended right after the old text, even when its last line has no line break | `/etc/modules` holding `vfio_pci` with no trailing newline becomes `vfio_pcivfio\nvfio_iommu_type1\n`, losing `vfio_pci` | every existing line is kept and the missing modules follow on lines of their own | high, not executed | Vfio.EnsureVfioModulesAsWritten, Vfio.AsWrittenLosesUnterminatedLine, Vfio.GluesLastLine | Vfio.EnsureVfioModules, Vfio.EnsureKeepsLines, Vfio.SecondRunAddsNothing |
| system_configurator.py:21 | `check()` returns the three-key hardware dictionary, which is unpacked into two names | any run whose preconditions all pass | `check()` yields the hardware facts and the unmet preconditions | high, not executed | RootConfigurator.ConfigureSystemAsWritten, RootConfigurator.AsWrittenNeverConfigures | RootConfigurator.ConfigureSystem, RootConfigurator.CorrectedPlansGrub |
| system_configurator.py:25-28 | the GRUB branch calls `restore_grub_config()`, which the `GrubConfig` class (grub_config.py:6-59) does not define, so it raises `AttributeError` after the backup and rewrite | with the line-21 unpacking corrected, a run with the GRUB check unmet whose backup and rewrite succeed | `RestoreGrub` is registered as the GRUB command's rollback and planning goes on | high, not executed | RootConfigurator.GrubBranchAsWritten, RootConfigurator.GrubBranchMissingRestore | RootConfigurator.CorrectedPlansGrub, Plans.PlanEntriesComplete |

=== FILE: bootloader.dfy ===
/** `Bootloader.determine_bootloader`: classify the output of
    `efibootmgr -v`. The output is a parameter, `None` when the probe exits
    non-zero. */
module Bootloader {

  import opened Types
  import opened Strings

  /** The four labels `determine_bootloader` returns. */
  datatype Label = GrubBios | GrubUefi | GrubUefiSecure | SystemdBoot {
    function Name(): string {
      match this
      case GrubBios => "grub-bios"
      case GrubUefi => "grub-uefi"
      case GrubUefiSecure => "grub-uefi-secure"
      case SystemdBoot => "systemd-boot"
    }
  }

  const NoEfi := "EFI variables are not supported"
  const Undetermined := ConfigurationError("Unable to determine bootloader type from efibootmgr output.")

  /** The tests on a successful probe's output, in source order. Only the
      first test is case-sensitive. */
  function Classify(output: string): (r: Result<Label>)
    ensures r == Ok(GrubBios) <==> Contains(output, NoEfi)
    ensures r == Ok(GrubUefi) <==>
              !Contains(output, NoEfi) && Contains(Lower(output), "proxmox")
              && Contains(Lower(output), "grubx64.efi")
    ensures r == Ok(GrubUefiSecure) <==>
              !Contains(output, NoEfi) && Contains(Lower(output), "proxmox")
              && !Contains(Lower(output), "grubx64.efi") && Contains(Lower(output), "shimx64.efi")
    ensures r == Ok(SystemdBoot) <==>
              && !Contains(output, NoEfi)
              && !(Contains(Lower(output), "proxmox")
                   && (Contains(Lower(output), "grubx64.efi") || Contains(Lower(output), "shimx64.efi")))
              && Contains(Lower(output), "systemd-bootx64.efi")
    ensures r.Err? ==> r.error == Undetermined
  {
    var low := Lower(output);
    if Contains(output, NoEfi) then Ok(GrubBios)
    else if Contains(low, "proxmox") && Contains(low, "grubx64.efi") then Ok(GrubUefi)
    else if Contains(low, "proxmox") && Contains(low, "shimx64.efi") then Ok(GrubUefiSecure)
    else if Contains(low, "systemd-bootx64.efi") then Ok(SystemdBoot)
    else Err(Undetermined)
  }

  /** `determine_bootloader` as written: on a failed probe the handler calls
      `e.stderr.decode()`, but `check_output` leaves `stderr` as `None`
      when it is not captured, so an `AttributeError` escapes instead of the
      `ConfigurationError` the handler goes on to raise. */
  function DetermineBootloaderAsWritten(output: Option<string>): (r: Result<Label>)
    ensures output.None? ==> r == Err(AttributeError)
    ensures output.Some? ==> r == Classify(output.value)
  {
    match output
    case None => Err(AttributeError)
    case Some(o) => Classify(o)
  }

  /** A failed `efibootmgr` probe escapes as an `AttributeError`. */
  lemma ProbeFailureEscapesAsWritten()
    ensures DetermineBootloaderAsWritten(None).Err?
    ensures !DetermineBootloaderAsWritten(None).error.ConfigurationError?
  {
  }

  /** `determine_bootloader` with the handler reaching its
      `raise ConfigurationError` (which carries no message). */
  function DetermineBootloader(output: Option<string>): (r: Result<Label>)
    ensures output.None? ==> r == Err(ConfigurationError(""))
    ensures output.Some? ==> r == Classify(output.value)
  {
    match output
    case None => Err(ConfigurationError(""))
    case Some(o) => Classify(o)
  }

  /** Every failure of the corrected classification is a
      `ConfigurationError`, and every success is one of the four labels. */
  lemma DetermineBootloaderTotal(output: Option<string>)
    ensures DetermineBootloader(output).Err? ==> DetermineBootloader(output).error.ConfigurationError?
    ensures DetermineBootloader(output).Ok? ==>
              DetermineBootloader(output).value.Name() in {"grub-bios", "grub-uefi", "grub-uefi-secure", "systemd-boot"}
  {
  }

  /** Proxmox output that names both loaders is GRUB in UEFI mode: the
      grubx64 test comes before the shimx64 test. */
  lemma GrubBeforeShim(output: string)
    requires !Contains(output, NoEfi) && Contains(Lower(output), "proxmox")
    requires Contains(Lower(output), "grubx64.efi") && Contains(Lower(output), "shimx64.efi")
    ensures Classify(output) == Ok(GrubUefi)
  {
  }
}

=== FILE: command_executor.dfy ===
/** `CommandExecutor` as the configurator sees it. Which command fails is an
    oracle `fails`; `execute` re-raises a failure and `rollback` logs and
    swallows it. */
module CommandExecutor {

  import opened Types

  /** The outcome of running a list of commands one by one with `execute`:
      the commands that were started and whether the last of them raised. */
  datatype Run = Run(executed: seq<Cmd>, failed: bool)

  /** `for command in self.commands: CommandExecutor.execute(command)`: stop
      at the first command that raises. */
  function Execute(cmds: seq<Cmd>, fails: Cmd -> bool): (r: Run)
    ensures |r.executed| <= |cmds| && r.executed == cmds[..|r.executed|]
    decreases |cmds|
  {
    if cmds == [] then Run([], false)
    else if fails(cmds[0]) then Run([cmds[0]], true)
    else
      var rest := Execute(cmds[1..], fails);
      Run([cmds[0]] + rest.executed, rest.failed)
  }

  /** The run fails exactly when some command fails; then it stops at the
      first failing command, and otherwise every command ran. */
  lemma {:induction false} ExecuteStopsAtFirstFailure(cmds: seq<Cmd>, fails: Cmd -> bool)
    ensures var r := Execute(cmds, fails);
      && (r.failed <==> exists i :: 0 <= i < |cmds| && fails(cmds[i]))
      && (r.failed ==> |r.executed| >= 1 && fails(cmds[|r.executed| - 1]))
      && (forall i :: 0 <= i < |r.executed| - (if r.failed then 1 else 0) ==> !fails(cmds[i]))
      && (!r.failed ==> r.executed == cmds)
    decreases |cmds|
  {
    if cmds != [] && !fails(cmds[0]) {
      var rest := Execute(cmds[1..], fails);
      ExecuteStopsAtFirstFailure(cmds[1..], fails);
      var r := Execute(cmds, fails);
      assert r.executed == [cmds[0]] + rest.executed;
      forall i | 1 <= i < |cmds| && fails(cmds[i])
        ensures rest.failed
      {
        assert cmds[1..][i - 1] == cmds[i];
      }
      if r.failed {
        var i :| 0 <= i < |cmds[1..]| && fails(cmds[1..][i]);
        assert cmds[i + 1] == cmds[1..][i];
      }
      forall i | 1 <= i < |r.executed| - (if r.failed then 1 else 0)
        ensures !fails(cmds[i])
      {
        assert cmds[1..][i - 1] == cmds[i];
      }
      if !r.failed {
        assert cmds == [cmds[0]] + cmds[1..];
      }
    }
  }

  /** One entry of the rollback pass: the command and whether it raised
      (the failure is logged and swallowed). */
  datatype RollbackEntry = RolledBack(command: Cmd) | RollbackFailed(command: Cmd)

  /** `for command in self.rollback_commands: CommandExecutor.rollback(command)`:
      every registered rollback runs, in registration order, whether or
      not an earlier one failed. */
  function Rollback(rollbacks: seq<Cmd>, fails: Cmd -> bool): (log: seq<RollbackEntry>)
    ensures |log| == |rollbacks|
    ensures forall i :: 0 <= i < |log| ==> log[i].command == rollbacks[i]
    ensures forall i :: 0 <= i < |log| ==> (log[i].RollbackFailed? <==> fails(rollbacks[i]))
    decreases |rollbacks|
  {
    if rollbacks == [] then []
    else
      var c := rollbacks[0];
      [if fails(c) then RollbackFailed(c) else RolledBack(c)] + Rollback(rollbacks[1..], fails)
  }
}

=== FILE: commands.dfy ===
/** The shell-command builders shared by both `SystemConfigurator` variants:
    the vfio.conf writer and the per-vendor driver blacklist and unblacklist
    commands, together with what those commands do to the lines of the file
    they edit. */
module Commands {

  import opened Types
  import opened Strings

  const VfioConfPath := "/etc/modprobe.d/vfio.conf"
  const BlacklistPath := "/etc/modprobe.d/blacklist.conf"

  /** The two fixed pieces around the comma-joined PCI ids. */
  const VfioConfHead := "echo \"options vfio-pci ids="
  const VfioConfTail := "\" > " + VfioConfPath

  /** `create_vfio_conf(pci_ids)`: writes `options vfio-pci ids=<ids>` into
      /etc/modprobe.d/vfio.conf. */
  function CreateVfioConf(pciIds: seq<string>): (command: string)
    ensures StartsWith(command, VfioConfHead) && EndsWith(command, VfioConfTail)
    ensures |command| >= |VfioConfHead| + |VfioConfTail|
    ensures command[|VfioConfHead|..|command| - |VfioConfTail|] == Join(pciIds, ",")
  {
    var body := Join(pciIds, ",");
    var command := VfioConfHead + body + VfioConfTail;
    assert command[..|VfioConfHead|] == VfioConfHead;
    assert command[|command| - |VfioConfTail|..] == VfioConfTail;
    assert command[|VfioConfHead|..|command| - |VfioConfTail|] == body;
    command
  }

  /** The rollback registered for the vfio.conf write. */
  const RemoveVfioConf := "rm " + VfioConfPath

  /** Reads the PCI ids back out of a vfio.conf command. */
  function VfioConfIds(command: string): Option<seq<string>> {
    if |command| >= |VfioConfHead| + |VfioConfTail|
       && StartsWith(command, VfioConfHead) && EndsWith(command, VfioConfTail)
    then Some(Split(command[|VfioConfHead|..|command| - |VfioConfTail|], ','))
    else None
  }

  /** The vfio.conf command carries exactly the ids it was built from, as
      long as there is at least one and none holds a comma. */
  lemma VfioConfRoundTrip(pciIds: seq<string>)
    requires |pciIds| >= 1
    requires forall k :: 0 <= k < |pciIds| ==> ',' !in pciIds[k]
    ensures VfioConfIds(CreateVfioConf(pciIds)) == Some(pciIds)
  {
    SplitJoin(pciIds, ',');
  }

  /** The ids of a two-function NVIDIA card end up comma-separated
      between the fixed head and tail. */
  lemma VfioConfExample()
    ensures CreateVfioConf(["10de:1b81", "10de:10f0"]) == VfioConfHead + "10de:1b81,10de:10f0" + VfioConfTail
  {
    assert ["10de:1b81", "10de:10f0"][1..] == ["10de:10f0"];
    assert "10de:1b81" + "," == "10de:1b81,";
  }

  /** The kernel modules blacklisted for a GPU type, in the order both
      builders list them; any other type names none. */
  function DriverModules(gpuType: string): (modules: seq<string>)
    ensures modules == [] <==> gpuType !in {"amd", "nvidia", "intel"}
    ensures forall i, j :: 0 <= i < j < |modules| ==> modules[i] != modules[j]
  {
    if gpuType == "amd" then ["radeon", "amdgpu"]
    else if gpuType == "nvidia" then ["nouveau", "nvidia", "nvidiafb", "nvidia_drm"]
    else if gpuType == "intel" then ["snd_hda_intel", "snd_hda_codec_hdmi", "i915"]
    else []
  }

  /** The line a blacklist command appends, which is also the pattern the
      matching unblacklist command deletes. */
  function BlacklistEntry(driver: string): string {
    "blacklist " + driver
  }

  /** One edit of the blacklist file: `echo "<line>" >> file` or
      `sed -i '/<pattern>/d' file`. */
  datatype FileEdit = AppendLine(line: string) | DeleteMatching(pattern: string)

  function Render(edit: FileEdit): string {
    match edit
    case AppendLine(line) => "echo \"" + line + "\" >> " + BlacklistPath
    case DeleteMatching(pattern) => "sed -i '/" + pattern + "/d' " + BlacklistPath
  }

  function AppendEntries(drivers: seq<string>): (r: seq<FileEdit>) {
    seq(|drivers|, i requires 0 <= i < |drivers| => AppendLine(BlacklistEntry(drivers[i])))
  }

  function DeleteEntries(drivers: seq<string>): (r: seq<FileEdit>) {
    seq(|drivers|, i requires 0 <= i < |drivers| => DeleteMatching(BlacklistEntry(drivers[i])))
  }

  function Entries(drivers: seq<string>): (r: seq<string>) {
    seq(|drivers|, i requires 0 <= i < |drivers| => BlacklistEntry(drivers[i]))
  }

  function RenderAll(edits: seq<FileEdit>): seq<string> {
    seq(|edits|, i requires 0 <= i < |edits| => Render(edits[i]))
  }

  /** `blacklist_drivers(gpu_type)`: one append per driver module, joined
      with ` && `. */
  function BlacklistDrivers(gpuType: string): (command: string)
    ensures command == "" <==> gpuType !in {"amd", "nvidia", "intel"}
  {
    var parts := RenderAll(AppendEntries(DriverModules(gpuType)));
    JoinEmpty(parts, " && ");
    Join(parts, " && ")
  }

  /** `unblacklist_drivers(gpu_type)`: one pattern delete per driver module,
      joined with ` && `. */
  function UnblacklistDrivers(gpuType: string): (command: string)
    ensures command == "" <==> gpuType !in {"amd", "nvidia", "intel"}
  {
    var parts := RenderAll(DeleteEntries(DriverModules(gpuType)));
    JoinEmpty(parts, " && ");
    Join(parts, " && ")
  }

  /** Each part of `blacklist_drivers` is the source's
      `echo "blacklist <module>" >> /etc/modprobe.d/blacklist.conf`. */
  lemma RenderAppend(gpuType: string, i: nat)
    requires i < |DriverModules(gpuType)|
    ensures RenderAll(AppendEntries(DriverModules(gpuType)))[i]
         == "echo \"blacklist " + DriverModules(gpuType)[i] + "\" >> /etc/modprobe.d/blacklist.conf"
  {
    var driver := DriverModules(gpuType)[i];
    assert RenderAll(AppendEntries(DriverModules(gpuType)))[i] == Render(AppendLine(BlacklistEntry(driver)));
    RenderAppendText(driver);
  }

  lemma RenderAppendText(driver: string)
    ensures Render(AppendLine(BlacklistEntry(driver))) == "echo \"blacklist " + driver + "\" >> /etc/modprobe.d/blacklist.conf"
  {
    AppendHead();
    AppendTail();
    Splice("echo \"", "blacklist ", driver, "\" >> ", BlacklistPath,
           "echo \"blacklist ", "\" >> /etc/modprobe.d/blacklist.conf");
  }

  lemma AppendHead()
    ensures "echo \"" + "blacklist " == "echo \"blacklist "
  {
  }

  lemma AppendTail()
    ensures "\" >> " + BlacklistPath == "\" >> /etc/modprobe.d/blacklist.conf"
  {
  }

  /** Regrouping a rendered command around its variable middle part. */
  lemma Splice<T>(h: seq<T>, m: seq<T>, d: seq<T>, t: seq<T>, p: seq<T>, hm: seq<T>, tp: seq<T>)
    requires h + m == hm && t + p == tp
    ensures h + (m + d) + t + p == hm + d + tp
  {
    SeqAssoc(h, m, d);
    SeqAssoc(hm + d, t, p);
  }

  /** Each part of `unblacklist_drivers` is the source's
      `sed -i '/blacklist <module>/d' /etc/modprobe.d/blacklist.conf`. */
  lemma RenderDelete(gpuType: string, i: nat)
    requires i < |DriverModules(gpuType)|
    ensures RenderAll(DeleteEntries(DriverModules(gpuType)))[i]
         == "sed -i '/blacklist " + DriverModules(gpuType)[i] + "/d' /etc/modprobe.d/blacklist.conf"
  {
    var driver := DriverModules(gpuType)[i];
    assert RenderAll(DeleteEntries(DriverModules(gpuType)))[i] == Render(DeleteMatching(BlacklistEntry(driver)));
    RenderDeleteText(driver);
  }

  lemma RenderDeleteText(driver: string)
    ensures Render(DeleteMatching(BlacklistEntry(driver))) == "sed -i '/blacklist " + driver + "/d' /etc/modprobe.d/blacklist.conf"
  {
    DeleteHead();
    DeleteTail();
    Splice("sed -i '/", "blacklist ", driver, "/d' ", BlacklistPath,
           "sed -i '/blacklist ", "/d' /etc/modprobe.d/blacklist.conf");
  }

  lemma DeleteHead()
    ensures "sed -i '/" + "blacklist " == "sed -i '/blacklist "
  {
  }

  lemma DeleteTail()
    ensures "/d' " + BlacklistPath == "/d' /etc/modprobe.d/blacklist.conf"
  {
  }

  /** A join of rendered edits is empty exactly when there are none. */
  lemma JoinEmpty(parts: seq<string>, sep: string)
    requires forall k :: 0 <= k < |parts| ==> |parts[k]| > 0
    ensures Join(parts, sep) == "" <==> parts == []
  {
    if |parts| > 1 {
      assert Join(parts, sep) == parts[0] + sep + Join(parts[1..], sep);
    }
  }

  /** What one edit does to the lines of the blacklist file. */
  function ApplyEdit(edit: FileEdit, file: seq<string>): seq<string> {
    match edit
    case AppendLine(line) => file + [line]
    case DeleteMatching(pattern) => Keep(file, [pattern])
  }

  /** What a `&&`-chain of edits does when every edit succeeds. */
  function ApplyEdits(edits: seq<FileEdit>, file: seq<string>): seq<string>
    decreases |edits|
  {
    if edits == [] then file else ApplyEdits(edits[1..], ApplyEdit(edits[0], file))
  }

  predicate MatchesAny(line: string, patterns: seq<string>) {
    exists i :: 0 <= i < |patterns| && Contains(line, patterns[i])
  }

  /** The lines matching none of the patterns, in order. */
  function Keep(file: seq<string>, patterns: seq<string>): (r: seq<string>)
    decreases |file|
  {
    if file == [] then []
    else (if MatchesAny(file[0], patterns) then [] else [file[0]]) + Keep(file[1..], patterns)
  }

  lemma {:induction false} ApplyAppends(modules: seq<string>, file: seq<string>)
    ensures ApplyEdits(AppendEntries(modules), file) == file + Entries(modules)
    decreases |modules|
  {
    if modules != [] {
      ApplyAppends(modules[1..], file + [BlacklistEntry(modules[0])]);
      assert AppendEntries(modules)[1..] == AppendEntries(modules[1..]);
      assert Entries(modules) == [BlacklistEntry(modules[0])] + Entries(modules[1..]);
      SeqAssoc(file, [BlacklistEntry(modules[0])], Entries(modules[1..]));
    }
  }

  lemma SeqAssoc<T>(a: seq<T>, b: seq<T>, c: seq<T>)
    ensures (a + b) + c == a + (b + c)
  {
  }

  lemma {:induction false} ApplyDeletes(modules: seq<string>, file: seq<string>)
    ensures ApplyEdits(DeleteEntries(modules), file) == Keep(file, Entries(modules))
    decreases |modules|
  {
    if modules == [] {
      KeepNoMatch(file, []);
    } else {
      var p := BlacklistEntry(modules[0]);
      var edits := DeleteEntries(modules);
      assert edits[0] == DeleteMatching(p);
      assert edits[1..] == DeleteEntries(modules[1..]);
      assert ApplyEdits(edits, file) == ApplyEdits(edits[1..], Keep(file, [p]));
      ApplyDeletes(modules[1..], Keep(file, [p]));
      KeepTwice(file, p, Entries(modules[1..]));
      assert Entries(modules) == [p] + Entries(modules[1..]);
    }
  }

  /** Deleting one pattern and then several is deleting all of them. */
  lemma {:induction false} KeepTwice(file: seq<string>, p: string, ps: seq<string>)
    ensures Keep(Keep(file, [p]), ps) == Keep(file, [p] + ps)
    decreases |file|
  {
    if file != [] {
      var l, rest := file[0], file[1..];
      assert file == [l] + rest;
      KeepTwice(rest, p, ps);
      MatchesAnyCons(l, p, ps);
      KeepCons(l, rest, [p]);
      KeepCons(l, rest, [p] + ps);
      if !MatchesAny(l, [p]) {
        KeepCons(l, Keep(rest, [p]), ps);
      } else {
        assert Keep(file, [p]) == Keep(rest, [p]);
      }
    }
  }

  lemma MatchesAnyCons(line: string, p: string, ps: seq<string>)
    ensures MatchesAny(line, [p] + ps) <==> MatchesAny(line, [p]) || MatchesAny(line, ps)
  {
    var all := [p] + ps;
    if MatchesAny(line, ps) {
      var i :| 0 <= i < |ps| && Contains(line, ps[i]);
      assert all[i + 1] == ps[i];
    }
    if MatchesAny(line, all) {
      var i :| 0 <= i < |all| && Contains(line, all[i]);
      if i > 0 {
        assert ps[i - 1] == all[i];
      }
    }
    if MatchesAny(line, [p]) {
      assert all[0] == p;
    }
  }

  lemma KeepCons(l: string, rest: seq<string>, ps: seq<string>)
    ensures Keep([l] + rest, ps) == (if MatchesAny(l, ps) then [] else [l]) + Keep(rest, ps)
  {
    assert ([l] + rest)[1..] == rest;
  }

  /** Keeping distributes over concatenation. */
  lemma {:induction false} KeepAppend(a: seq<string>, b: seq<string>, ps: seq<string>)
    ensures Keep(a + b, ps) == Keep(a, ps) + Keep(b, ps)
    decreases |a|
  {
    if a == [] {
      assert a + b == b;
    } else {
      var l, rest := a[0], a[1..];
      assert a == [l] + rest;
      assert a + b == [l] + (rest + b);
      KeepCons(l, rest + b, ps);
      KeepCons(l, rest, ps);
      KeepAppend(rest, b, ps);
      SeqAssoc(if MatchesAny(l, ps) then [] else [l], Keep(rest, ps), Keep(b, ps));
    }
  }

  /** Every entry line is deleted by its own pattern. */
  lemma {:induction false} KeepEntries(modules: seq<string>, extra: seq<string>)
    ensures Keep(Entries(modules), extra + Entries(modules)) == []
    decreases |modules|
  {
    if modules != [] {
      var e := BlacklistEntry(modules[0]);
      var ps := extra + Entries(modules);
      ContainsInfix([], e, []);
      assert [] + e + [] == e;
      assert ps[|extra|] == e;
      assert MatchesAny(e, ps);
      assert Entries(modules) == [e] + Entries(modules[1..]);
      assert ps == (extra + [e]) + Entries(modules[1..]);
      KeepEntries(modules[1..], extra + [e]);
    }
  }

  /** A file none of whose lines matches is left as it is. */
  lemma {:induction false} KeepNoMatch(file: seq<string>, ps: seq<string>)
    requires forall k :: 0 <= k < |file| ==> !MatchesAny(file[k], ps)
    ensures Keep(file, ps) == file
    decreases |file|
  {
    if file != [] {
      KeepNoMatch(file[1..], ps);
    }
  }

  /** Rolling back a blacklist edit removes every line it added: the file
      ends up as if only the rollback had run. When no line of the original
      file matches one of the patterns, that is the original file. */
  lemma UnblacklistUndoesBlacklist(gpuType: string, file: seq<string>)
    ensures ApplyEdits(DeleteEntries(DriverModules(gpuType)),
                       ApplyEdits(AppendEntries(DriverModules(gpuType)), file))
         == Keep(file, Entries(DriverModules(gpuType)))
    ensures (forall k :: 0 <= k < |file| ==> !MatchesAny(file[k], Entries(DriverModules(gpuType))))
         ==> ApplyEdits(DeleteEntries(DriverModules(gpuType)),
                        ApplyEdits(AppendEntries(DriverModules(gpuType)), file)) == file
  {
    var ms := DriverModules(gpuType);
    var ps := Entries(ms);
    ApplyAppends(ms, file);
    ApplyDeletes(ms, file + ps);
    KeepAppend(file, ps, ps);
    KeepEntries(ms, []);
    assert [] + ps == ps;
    if forall k :: 0 <= k < |file| ==> !MatchesAny(file[k], ps) {
      KeepNoMatch(file, ps);
    }
  }

  /** The pattern deletes are wider than the appends: the NVIDIA rollback
      also removes a blacklist line it never added. */
  lemma NvidiaRollbackDeletesForeignEntry()
    ensures ApplyEdits(DeleteEntries(DriverModules("nvidia")), ["blacklist nvidia_uvm"]) == []
  {
    var ps := Entries(DriverModules("nvidia"));
    ApplyDeletes(DriverModules("nvidia"), ["blacklist nvidia_uvm"]);
    assert ps[1] == "blacklist nvidia";
    ContainsInfix([], "blacklist nvidia", "_uvm");
    assert [] + "blacklist nvidia" + "_uvm" == "blacklist nvidia_uvm";
    assert MatchesAny("blacklist nvidia_uvm", ps);
  }
}

=== FILE: configurator.dfy ===
/** `SystemConfigurator.configure_system` of the packaged variant: once no
    precondition is unmet, walk the declared desired-state conditions in
    order, let each one the discrepancies name fire the first branch of the
    `elif` chain it matches, append `update-initramfs -u`, then list or
    execute the commands. What `check()` and `compare_states()` of the
    packaged preconditions return is input here. */
module Configurator {

  import opened Types
  import opened Strings
  import HardwareInfo
  import opened Plans
  import Commands

  const UpdateRamfs := Shell("update-initramfs -u")

  const GrubKey := "GRUB has IOMMU settings"
  const VfioKey := "VFIO modules are loaded"
  const KvmKey := "kvm.conf has Nvidia Card settings"
  const AmdKey := "AMD drivers are blacklisted"
  const NvidiaKey := "NVIDIA drivers are blacklisted"
  const IntelKey := "Intel drivers are blacklisted"

  /** The `if`/`elif` chain for one description: the first branch whose
      substring the description contains and whose GPU test holds. */
  function Branch(description: string, gpu: Option<Vendor>): (r: Option<Action>)
    ensures r == Some(GrubAction) <==> Contains(description, GrubKey)
    ensures r == Some(VfioAction) <==> !Contains(description, GrubKey) && Contains(description, VfioKey)
    ensures r == Some(VfioConfAction) <==>
              && !Contains(description, GrubKey) && !Contains(description, VfioKey)
              && Contains(description, KvmKey) && gpu == Some(Nvidia)
    ensures r == Some(BlacklistAction(Amd)) <==>
              && !Contains(description, GrubKey) && !Contains(description, VfioKey)
              && !(Contains(description, KvmKey) && gpu == Some(Nvidia))
              && Contains(description, AmdKey) && gpu == Some(Amd)
    ensures r == Some(BlacklistAction(Nvidia)) <==>
              && !Contains(description, GrubKey) && !Contains(description, VfioKey)
              && !(Contains(description, KvmKey) && gpu == Some(Nvidia))
              && !(Contains(description, AmdKey) && gpu == Some(Amd))
              && Contains(description, NvidiaKey) && gpu == Some(Nvidia)
    ensures r == Some(BlacklistAction(Intel)) <==>
              && !Contains(description, GrubKey) && !Contains(description, VfioKey)
              && !(Contains(description, KvmKey) && gpu == Some(Nvidia))
              && !(Contains(description, AmdKey) && gpu == Some(Amd))
              && !(Contains(description, NvidiaKey) && gpu == Some(Nvidia))
              && Contains(description, IntelKey) && gpu == Some(Intel)
    ensures r.None? <==>
              && !Contains(description, GrubKey) && !Contains(description, VfioKey)
              && !(Contains(description, KvmKey) && gpu == Some(Nvidia))
              && !(Contains(description, AmdKey) && gpu == Some(Amd))
              && !(Contains(description, NvidiaKey) && gpu == Some(Nvidia))
              && !(Contains(description, IntelKey) && gpu == Some(Intel))
  {
    if Contains(description, GrubKey) then Some(GrubAction)
    else if Contains(description, VfioKey) then Some(VfioAction)
    else if Contains(description, KvmKey) && gpu == Some(Nvidia) then Some(VfioConfAction)
    else if Contains(description, AmdKey) && gpu == Some(Amd) then Some(BlacklistAction(Amd))
    else if Contains(description, NvidiaKey) && gpu == Some(Nvidia) then Some(BlacklistAction(Nvidia))
    else if Contains(description, IntelKey) && gpu == Some(Intel) then Some(BlacklistAction(Intel))
    else None
  }

  /** `prepare_commands`: the branches fired by the declared conditions, in
      declaration order, for those whose description is among the
      discrepancies. */
  function Selected(desired: seq<string>, discrepancies: seq<string>, gpu: Option<Vendor>): (fired: seq<Action>)
    ensures |fired| <= |desired|
    decreases |desired|
  {
    if desired == [] then []
    else FiredBy(desired[0], discrepancies, gpu) + Selected(desired[1..], discrepancies, gpu)
  }

  /** The branch one declared condition fires, if any. */
  function FiredBy(d: string, discrepancies: seq<string>, gpu: Option<Vendor>): (r: seq<Action>)
    ensures |r| <= 1
    ensures r != [] <==> d in discrepancies && Branch(d, gpu).Some?
    ensures r != [] ==> Some(r[0]) == Branch(d, gpu)
  {
    if d in discrepancies && Branch(d, gpu).Some? then [Branch(d, gpu).value] else []
  }

  /** What the environment answers during one call. */
  datatype Host = Host(
    /** `preconditions.check()`: the hardware facts and the unmet
        preconditions, or the exception it raised. */
    checked: Result<(HardwareInfo.Facts, seq<string>)>,
    /** The descriptions of `settings['desired_state']['commands']`. */
    desired: seq<string>,
    /** The first `compare_states()`. */
    discrepancies: Result<seq<string>>,
    /** Which immediate actions raise. */
    immFails: Immediate -> bool,
    /** Which commands raise when executed or rolled back. */
    fails: Cmd -> bool,
    /** The exception of `check_iommu_enabled()` or of the second
        `compare_states()`, if either raises. */
    postCheck: Option<Error>)

  /** The entries planning starts from once no precondition is unmet and
      the discrepancies are known. */
  function PlannedEntries(facts: HardwareInfo.Facts, desired: seq<string>, ds: seq<string>): (es: seq<Entry>)
    ensures |es| <= |desired|
  {
    EntriesOf(Selected(desired, ds, facts.gpu.gpuType), facts.gpu.codes)
  }

  /** `configure_system()`. */
  function ConfigureSystem(host: Host, dryRun: bool): (r: Report)
    ensures r.outcome == PreconditionsUnmet <==> host.checked.Ok? && host.checked.value.1 != []
    ensures r.outcome != AlreadyConfigured
    ensures dryRun ==> r.executed == []
    ensures r.outcome == Configured ==> r.rolledBack == []
    ensures r.outcome.Raised? ==> RolledBackCommands(r.rolledBack) == r.plan.rollbacks
  {
    match host.checked
    case Err(e) => Abort([], EmptyPlan, e, host.fails)
    case Ok((facts, unmet)) =>
      if unmet != [] then Report([], EmptyPlan, [], [], [], PreconditionsUnmet)
      else match host.discrepancies
        case Err(e) => Abort([], EmptyPlan, e, host.fails)
        case Ok(ds) =>
          var p := PlanEntries(PlannedEntries(facts, host.desired, ds), host.immFails);
          if p.error.Some? then Abort(p.performed, p.plan, p.error.value, host.fails)
          else Finish(p.performed, Plan(p.plan.commands + [UpdateRamfs], p.plan.rollbacks),
                      dryRun, host.fails, host.postCheck)
  }

  /** An unmet precondition blocks everything: nothing is performed,
      planned, listed, executed or rolled back, whatever else the host
      answers. */
  lemma UnmetBlocksEverything(host: Host, dryRun: bool)
    requires host.checked.Ok? && host.checked.value.1 != []
    ensures ConfigureSystem(host, dryRun) == Report([], EmptyPlan, [], [], [], PreconditionsUnmet)
  {
  }

  /** Once the discrepancies are known and no immediate action fails, the
      lists are exactly what the fired branches contribute, with
      `update-initramfs -u` queued last and given no rollback. */
  lemma PlanIsFiredBranches(host: Host, dryRun: bool)
    requires host.checked.Ok? && host.checked.value.1 == [] && host.discrepancies.Ok?
    requires var es := PlannedEntries(host.checked.value.0, host.desired, host.discrepancies.value);
      forall k :: 0 <= k < |es| ==> Succeeds(es[k], host.immFails)
    ensures var es := PlannedEntries(host.checked.value.0, host.desired, host.discrepancies.value);
      var r := ConfigureSystem(host, dryRun);
      && r.performed == Flatten(es).immediate
      && r.plan == Plan(Flatten(es).commands + [UpdateRamfs], Flatten(es).rollbacks)
  {
    var es := PlannedEntries(host.checked.value.0, host.desired, host.discrepancies.value);
    PlanEntriesComplete(es, host.immFails);
  }

  /** A dry run performs the same immediate actions and builds the same
      lists as a live run: only the execution of the queued commands is
      skipped. */
  lemma DryRunStillPerforms(host: Host)
    ensures ConfigureSystem(host, true).performed == ConfigureSystem(host, false).performed
    ensures ConfigureSystem(host, true).plan == ConfigureSystem(host, false).plan
    ensures ConfigureSystem(host, true).executed == []
  {
  }

  /** With no discrepancy, the only queued command is `update-initramfs -u`. */
  lemma NoDiscrepancyOnlyRamfs(host: Host, dryRun: bool)
    requires host.checked.Ok? && host.checked.value.1 == [] && host.discrepancies == Ok([])
    ensures ConfigureSystem(host, dryRun).plan == Plan([UpdateRamfs], [])
    ensures ConfigureSystem(host, dryRun).performed == []
  {
    var facts := host.checked.value.0;
    SelectedNone(host.desired, facts.gpu.gpuType);
  }

  /** Nothing fires without a discrepancy. */
  lemma {:induction false} SelectedNone(desired: seq<string>, gpu: Option<Vendor>)
    ensures Selected(desired, [], gpu) == []
    decreases |desired|
  {
    if desired != [] {
      SelectedNone(desired[1..], gpu);
    }
  }

  /** Planning follows declaration order: the conditions of a concatenated
      declaration fire as the two halves do, one after the other. */
  lemma {:induction false} SelectedAppend(a: seq<string>, b: seq<string>, ds: seq<string>, gpu: Option<Vendor>)
    ensures Selected(a + b, ds, gpu) == Selected(a, ds, gpu) + Selected(b, ds, gpu)
    decreases |a|
  {
    if a == [] {
      assert a + b == b;
    } else {
      var ab := a + b;
      assert ab[0] == a[0] && ab[1..] == a[1..] + b;
      SelectedAppend(a[1..], b, ds, gpu);
      Commands.SeqAssoc(FiredBy(a[0], ds, gpu), Selected(a[1..], ds, gpu), Selected(b, ds, gpu));
    }
  }

  /** Only membership in the discrepancies matters, not their order or
      repetition. */
  lemma {:induction false} SelectedByMembership(desired: seq<string>, ds1: seq<string>, ds2: seq<string>,
                                                gpu: Option<Vendor>)
    requires forall d :: d in desired ==> (d in ds1 <==> d in ds2)
    ensures Selected(desired, ds1, gpu) == Selected(desired, ds2, gpu)
    decreases |desired|
  {
    if desired != [] {
      assert desired[0] in desired;
      forall d | d in desired[1..]
        ensures d in desired
      {
      }
      SelectedByMembership(desired[1..], ds1, ds2, gpu);
    }
  }

  /** The kvm.conf condition queues the vfio.conf command for an NVIDIA
      card and nothing for any other GPU. */
  lemma KvmBranch(gpu: Option<Vendor>)
    ensures Branch(KvmKey, Some(Nvidia)) == Some(VfioConfAction)
    ensures gpu != Some(Nvidia) ==> Branch(KvmKey, gpu) == None
  {
    KvmKeyMatches();
  }

  /** The kvm.conf description contains its own key and no other. */
  lemma KvmKeyMatches()
    ensures Contains(KvmKey, KvmKey)
    ensures !Contains(KvmKey, GrubKey) && !Contains(KvmKey, VfioKey)
    ensures !Contains(KvmKey, AmdKey) && !Contains(KvmKey, NvidiaKey) && !Contains(KvmKey, IntelKey)
  {
    assert OccursAt(KvmKey, KvmKey, 0);
    KvmKeyLacks(GrubKey, 0);
    KvmKeyLacks(VfioKey, 0);
    KvmKeyLacks(AmdKey, 0);
    KvmKeyLacks(NvidiaKey, 1);
    KvmKeyLacks(IntelKey, 0);
  }

  /** A key with a character the kvm.conf description lacks is not in it. */
  lemma KvmKeyLacks(key: string, k: nat)
    requires k < |key| && key[k] in "GVAI"
    ensures !Contains(KvmKey, key)
  {
    assert forall c :: c in "GVAI" ==> c !in KvmKey;
    NotContainsByChar(KvmKey, key, k);
  }
}

=== FILE: grub_config.dfy ===
/** `GrubConfig.modify_grub_config`: choose the IOMMU kernel options from the
    `lscpu` text and append them to the first `GRUB_CMDLINE_LINUX_DEFAULT`
    line of /etc/default/grub, then run `update-grub`. The lscpu output, the
    lines `readlines()` returns and the outcome of the write and of
    `update-grub` are parameters. */
module GrubConfig {

  import opened Types
  import opened Strings

  const CmdlineKey := "GRUB_CMDLINE_LINUX_DEFAULT"
  const AmdSettings := "quiet iommu=pt"
  const IntelSettings := "quiet intel_iommu=on iommu=pt"
  const UnsupportedCpu := ConfigurationError("Unsupported CPU type. Only AMD and Intel CPUs are supported.")

  /** Every exception inside `modify_grub_config` is re-raised as this one. */
  const ModifyFailed := ConfigurationError("Failed to modify /etc/default/grub")

  /** The options required for the CPU: "amd" in the lower-cased lscpu text
      wins over "intel"; neither is an error. */
  function RequiredSettings(lscpu: string): (r: Result<string>)
    ensures r == Ok(AmdSettings) <==> Contains(Lower(lscpu), "amd")
    ensures r == Ok(IntelSettings) <==> !Contains(Lower(lscpu), "amd") && Contains(Lower(lscpu), "intel")
    ensures r.Err? <==> !Contains(Lower(lscpu), "amd") && !Contains(Lower(lscpu), "intel")
    ensures r.Err? ==> r.error == UnsupportedCpu
  {
    var low := Lower(lscpu);
    if Contains(low, "amd") then Ok(AmdSettings)
    else if Contains(low, "intel") then Ok(IntelSettings)
    else Err(UnsupportedCpu)
  }

  /** The index of the first line starting with `GRUB_CMDLINE_LINUX_DEFAULT`. */
  function FirstCmdline(lines: seq<string>): (k: Option<nat>)
    ensures k.Some? ==> k.value < |lines| && StartsWith(lines[k.value], CmdlineKey)
    ensures k.Some? ==> forall j :: 0 <= j < k.value ==> !StartsWith(lines[j], CmdlineKey)
    ensures k.None? ==> forall j :: 0 <= j < |lines| ==> !StartsWith(lines[j], CmdlineKey)
    decreases |lines|
  {
    if lines == [] then None
    else if StartsWith(lines[0], CmdlineKey) then Some(0)
    else match FirstCmdline(lines[1..])
      case None => None
      case Some(k) => Some(k + 1)
  }

  /** `line.split('=', 1)[1]`: the text after the first `=`, or `None` where
      Python raises `IndexError`. */
  function AfterFirstEquals(line: string): (r: Option<string>)
    ensures r.None? <==> '=' !in line
    ensures r.Some? ==> exists i :: 0 <= i < |line| && line[i] == '=' && '=' !in line[..i] && r.value == line[i + 1..]
  {
    var i := IndexOf(line, '=');
    IndexOfFirst(line, '=');
    if i == |line| then
      assert line[..i] == line;
      None
    else Some(line[i + 1..])
  }

  /** `GRUB_CMDLINE_LINUX_DEFAULT="<value> <required>"` and a newline. */
  function NewCmdline(value: string, required: string): string {
    CmdlineKey + "=\"" + value + " " + required + "\"\n"
  }

  /** The rewritten line starts with the key and holds the options. */
  lemma NewCmdlineShape(value: string, required: string)
    ensures StartsWith(NewCmdline(value, required), CmdlineKey)
    ensures Contains(NewCmdline(value, required), required)
  {
    var front := CmdlineKey + "=\"" + value + " ";
    ContainsInfix(front, required, "\"\n");
    var tail := "=\"" + value + " " + required + "\"\n";
    assert NewCmdline(value, required) == CmdlineKey + tail;
    assert (CmdlineKey + tail)[..|CmdlineKey|] == CmdlineKey;
  }

  /** The loop body for the first matching line: `None` when the options
      are already in it, the replacement line otherwise. */
  function RewriteLine(line: string, required: string): (r: Result<Option<string>>)
    ensures r == Ok(None) <==> Contains(line, required)
    ensures r.Err? <==> !Contains(line, required) && '=' !in line
    ensures r.Err? ==> r.error == IndexError
    ensures r.Ok? && r.value.Some? ==>
              StartsWith(r.value.value, CmdlineKey) && Contains(r.value.value, required)
  {
    if Contains(line, required) then Ok(None)
    else match AfterFirstEquals(line)
      case None => Err(IndexError)
      case Some(rest) =>
        NewCmdlineShape(StripQuotes(Strip(rest)), required);
        Ok(Some(NewCmdline(StripQuotes(Strip(rest)), required)))
  }

  /** The `for i, line in enumerate(grub_config)` loop: the new lines and
      the `modified` flag, or the `IndexError` of a line without `=`. */
  function RewriteCmdline(lines: seq<string>, required: string): (r: Result<(seq<string>, bool)>)
    ensures r.Ok? ==> |r.value.0| == |lines|
  {
    match FirstCmdline(lines)
    case None => Ok((lines, false))
    case Some(k) =>
      match RewriteLine(lines[k], required)
      case Err(e) => Err(e)
      case Ok(None) => Ok((lines, false))
      case Ok(Some(n)) => Ok((lines[k := n], true))
  }

  /** An unmodified result is the input, and then the first matching line,
      if any, already holds the options. */
  lemma RewriteUnmodified(lines: seq<string>, required: string)
    requires RewriteCmdline(lines, required).Ok? && !RewriteCmdline(lines, required).value.1
    ensures RewriteCmdline(lines, required).value.0 == lines
    ensures FirstCmdline(lines).None? || Contains(lines[FirstCmdline(lines).value], required)
  {
  }

  /** A modified result differs from the input only in the first matching
      line, which lacked the options and now starts with the key and holds
      them. */
  lemma RewriteModified(lines: seq<string>, required: string)
    requires RewriteCmdline(lines, required).Ok? && RewriteCmdline(lines, required).value.1
    ensures FirstCmdline(lines).Some?
    ensures var k := FirstCmdline(lines).value;
      var out := RewriteCmdline(lines, required).value.0;
      && !Contains(lines[k], required)
      && StartsWith(out[k], CmdlineKey)
      && Contains(out[k], required)
      && forall j :: 0 <= j < |lines| && j != k ==> out[j] == lines[j]
  {
    var k := FirstCmdline(lines).value;
    var n := RewriteLine(lines[k], required).value.value;
    assert RewriteCmdline(lines, required).value.0 == lines[k := n];
  }

  /** The loop raises only at a first matching line that lacks both the
      options and an `=`. */
  lemma RewriteFails(lines: seq<string>, required: string)
    requires RewriteCmdline(lines, required).Err?
    ensures RewriteCmdline(lines, required).error == IndexError
    ensures FirstCmdline(lines).Some?
    ensures '=' !in lines[FirstCmdline(lines).value]
    ensures !Contains(lines[FirstCmdline(lines).value], required)
  {
  }

  /** Rewriting is idempotent: the options are then in the first matching
      line, so a second pass changes nothing. */
  lemma RewriteIdempotent(lines: seq<string>, required: string)
    requires RewriteCmdline(lines, required).Ok?
    ensures RewriteCmdline(RewriteCmdline(lines, required).value.0, required)
         == Ok((RewriteCmdline(lines, required).value.0, false))
  {
    var r := RewriteCmdline(lines, required).value;
    if r.1 {
      RewriteModified(lines, required);
      var k := FirstCmdline(lines).value;
      var out := r.0;
      assert forall j :: 0 <= j < k ==> out[j] == lines[j];
      FirstCmdlineAt(out, k);
    }
  }

  /** The first matching line is found where the first `k` lines do not
      match and line `k` does. */
  lemma {:induction false} FirstCmdlineAt(lines: seq<string>, k: nat)
    requires k < |lines| && StartsWith(lines[k], CmdlineKey)
    requires forall j :: 0 <= j < k ==> !StartsWith(lines[j], CmdlineKey)
    ensures FirstCmdline(lines) == Some(k)
    decreases k
  {
    if k > 0 {
      FirstCmdlineAt(lines[1..], k - 1);
    }
  }

  /** The observable effects of one `modify_grub_config` call. */
  datatype GrubRun = GrubRun(written: Option<seq<string>>, updateGrubRan: bool, error: Option<Error>)

  /** `modify_grub_config`: `lscpu` and `grub` are `None` when the probe
      fails or the file cannot be read. The file is written and `update-grub`
      run only when the loop modified a line; every failure surfaces as
      `ModifyFailed`, a failing `update-grub` after the file was written. */
  function ModifyGrubConfig(lscpu: Option<string>, grub: Option<seq<string>>,
                            writeFails: bool, updateGrubFails: bool): (run: GrubRun)
    ensures run.error.Some? ==> run.error == Some(ModifyFailed)
    ensures run.updateGrubRan ==> run.written.Some?
    ensures run.written.Some? ==>
              && lscpu.Some? && grub.Some? && RequiredSettings(lscpu.value).Ok?
              && var req := RequiredSettings(lscpu.value).value;
              && RewriteCmdline(grub.value, req).Ok?
              && RewriteCmdline(grub.value, req).value.1
              && run.written.value == RewriteCmdline(grub.value, req).value.0
    ensures run.error.None? <==>
              && lscpu.Some? && grub.Some? && RequiredSettings(lscpu.value).Ok?
              && RewriteCmdline(grub.value, RequiredSettings(lscpu.value).value).Ok?
              && (RewriteCmdline(grub.value, RequiredSettings(lscpu.value).value).value.1
                  ==> !writeFails && !updateGrubFails)
  {
    if lscpu.None? then GrubRun(None, false, Some(ModifyFailed))
    else match RequiredSettings(lscpu.value)
      case Err(_) => GrubRun(None, false, Some(ModifyFailed))
      case Ok(req) =>
        if grub.None? then GrubRun(None, false, Some(ModifyFailed))
        else match RewriteCmdline(grub.value, req)
          case Err(_) => GrubRun(None, false, Some(ModifyFailed))
          case Ok((out, modified)) =>
            if !modified then GrubRun(None, false, None)
            else if writeFails then GrubRun(None, false, Some(ModifyFailed))
            else GrubRun(Some(out), true, if updateGrubFails then Some(ModifyFailed) else None)
  }

  /** A file that already carries the options is neither written nor
      followed by `update-grub`, and a second successful call after a first
      one changes nothing. */
  lemma ModifyTwiceWritesOnce(lscpu: string, grub: seq<string>, writeFails: bool, updateGrubFails: bool)
    requires ModifyGrubConfig(Some(lscpu), Some(grub), false, false).written.Some?
    ensures var once := ModifyGrubConfig(Some(lscpu), Some(grub), false, false).written.value;
      ModifyGrubConfig(Some(lscpu), Some(once), writeFails, updateGrubFails) == GrubRun(None, false, None)
  {
    var req := RequiredSettings(lscpu).value;
    RewriteIdempotent(grub, req);
  }

  /** The existing value is kept and the options are appended to it: a line
      `GRUB_CMDLINE_LINUX_DEFAULT="<v>"`, followed by its line terminator or
      any other whitespace `ws`, that lacks the options becomes
      `GRUB_CMDLINE_LINUX_DEFAULT="<v> <required>"`. The value may be empty;
      one with a quote at either end would lose it to `strip('"')`. */
  lemma RewriteKeepsValue(v: string, ws: string, required: string)
    requires v == [] || (v[0] != '"' && v[|v| - 1] != '"')
    requires forall k :: 0 <= k < |ws| ==> IsSpace(ws[k])
    requires !Contains(CmdlineKey + "=\"" + v + "\"" + ws, required)
    ensures RewriteLine(CmdlineKey + "=\"" + v + "\"" + ws, required) == Ok(Some(NewCmdline(v, required)))
  {
    var quoted := QuotedValue(v);
    var rest := quoted + ws;
    KeyLine(v, ws);
    ValueAfterKey(rest);
    StripPadded(quoted, ws);
    if v == [] {
      EmptyQuotes();
    } else {
      StripOneLayer(v);
    }
  }

  /** `strip('"')` of `""` is empty. */
  lemma EmptyQuotes()
    ensures StripQuotes(QuotedValue("")) == ""
  {
    assert QuotedValue("") == "\"\"";
  }

  /** `"<v>"`. */
  function QuotedValue(v: string): (q: string)
    ensures |q| == |v| + 2 && q[0] == '"' && q[|q| - 1] == '"'
    ensures q[1..|q| - 1] == v
  {
    "\"" + v + "\""
  }

  lemma KeyLine(v: string, ws: string)
    ensures CmdlineKey + "=\"" + v + "\"" + ws == CmdlineKey + "=" + (QuotedValue(v) + ws)
  {
  }

  /** The text after the first `=` of a key line is all of the rest. */
  lemma ValueAfterKey(rest: string)
    ensures AfterFirstEquals(CmdlineKey + "=" + rest) == Some(rest)
  {
    var line := CmdlineKey + "=" + rest;
    assert '=' !in CmdlineKey;
    IndexOfAfter(CmdlineKey, '=', rest);
    assert line[|CmdlineKey| + 1..] == rest;
  }

  /** `strip('"')` of `"<v>"` is `v` when `v` has no quote at either end. */
  lemma StripOneLayer(v: string)
    requires v != [] && v[0] != '"' && v[|v| - 1] != '"'
    ensures StripQuotes(QuotedValue(v)) == v
  {
    var q := QuotedValue(v);
    var drop := (c: char) => c == '"';
    assert drop(q[0]) && !drop(q[1]) && q[1] == v[0];
    var t := TrimLeft(q, drop);
    assert |t| == |q| - 1;
    assert t == v + "\"";
    assert drop(t[|t| - 1]) && !drop(t[|t| - 2]) && t[|t| - 2] == v[|v| - 1];
    var r := TrimRight(t, drop);
    assert |r| == |t| - 1;
    assert r == v;
  }
}

=== FILE: hardware_info.dfy ===
/** `HardwareInfo`: the motherboard, CPU and GPU facts read from the text of
    `dmidecode -t baseboard`, `lscpu`, `lspci -nn | grep -i vga` and
    `lspci -nn`. The four probe outputs are parameters. */
module HardwareInfo {

  import opened Types
  import opened Strings

  /** `{'model': ..., 'detail': ...}` for the CPU and the motherboard. */
  datatype Field = Field(model: Option<string>, detail: Option<string>)

  /** `hardware_info['gpu']`; `present` is its `exists` key. */
  datatype Gpu = Gpu(present: bool, model: Option<string>, detail: Option<string>,
                     gpuType: Option<Vendor>, codes: seq<string>)

  /** The dictionary `log_hardware_info` returns. */
  datatype Facts = Facts(cpu: Field, motherboard: Field, gpu: Gpu)

  /** The initial value of `self.hardware_info['gpu']`. */
  const NoGpu := Gpu(false, None, None, None, [])

  const IntelKeyword := "intel"
  const AmdKeyword := "amd"
  const AmdLongKeyword := "advanced micro devices"
  const NvidiaKeyword := "nvidia"

  predicate NoLineWith(lines: seq<string>, key: string) {
    forall j :: 0 <= j < |lines| ==> !Contains(lines[j], key)
  }

  /** The index of the first line containing `key`, if any. */
  function FirstLineWith(lines: seq<string>, key: string): (k: Option<nat>)
    ensures k.Some? ==> k.value < |lines| && Contains(lines[k.value], key)
    ensures k.Some? ==> forall j :: 0 <= j < k.value ==> !Contains(lines[j], key)
    ensures k.None? <==> NoLineWith(lines, key)
    decreases |lines|
  {
    if lines == [] then None
    else if Contains(lines[0], key) then Some(0)
    else match FirstLineWith(lines[1..], key)
      case None => None
      case Some(k) => Some(k + 1)
  }

  /** `_parse_motherboard_info` (key "Product Name:") and `_parse_cpu_info`
      (key "Model name:"): the first line holding the key gives the model,
      the field between its first and second `:`, stripped; the detail is
      the whole text. */
  function ParseField(info: string, key: string): (r: Field)
    requires ':' in key
    ensures r.detail == Some(info)
  {
    var lines := Split(info, '\n');
    match FirstLineWith(lines, key)
    case None => Field(None, Some(info))
    case Some(k) =>
      FieldHasSeparator(lines[k], key);
      Field(Some(Strip(Split(lines[k], ':')[1])), Some(info))
  }

  /** A line holding a key with a `:` in it splits into at least two fields. */
  lemma FieldHasSeparator(line: string, key: string)
    requires ':' in key && Contains(line, key)
    ensures |Split(line, ':')| >= 2
  {
    var i :| 0 <= i <= |line| - |key| && OccursAt(line, key, i);
    var k :| 0 <= k < |key| && key[k] == ':';
    assert line[i..i + |key|][k] == line[i + k];
    IndexOfFirst(line, ':');
    assert line[i + k] == ':';
    assert line[..|line|] == line;
    assert IndexOf(line, ':') < |line|;
  }

  /** The model of a parsed field is the second `:`-field of a line that
      holds the key, with no whitespace at either end. */
  lemma ParseFieldModel(info: string, key: string)
    requires ':' in key
    ensures var r := ParseField(info, key);
      r.model.None? <==> NoLineWith(Split(info, '\n'), key)
    ensures var r := ParseField(info, key);
      r.model.Some? ==>
        exists k :: 0 <= k < |Split(info, '\n')| && Contains(Split(info, '\n')[k], key)
          && (forall j :: 0 <= j < k ==> !Contains(Split(info, '\n')[j], key))
          && |Split(Split(info, '\n')[k], ':')| >= 2
          && r.model.value == Strip(Split(Split(info, '\n')[k], ':')[1])
  {
    var lines := Split(info, '\n');
    var first := FirstLineWith(lines, key);
    if first.Some? {
      FieldHasSeparator(lines[first.value], key);
      assert ParseField(info, key).model == Some(Strip(Split(lines[first.value], ':')[1]));
    }
  }

  /** Vendor keyword precedence on the lower-cased VGA text: intel, then
      amd or "advanced micro devices", then nvidia. */
  function ClassifyVendor(vga: string): (v: Option<Vendor>)
    ensures var low := Lower(vga);
      && (v == Some(Intel) <==> Contains(low, IntelKeyword))
      && (v == Some(Amd) <==> !Contains(low, IntelKeyword)
                              && (Contains(low, AmdKeyword) || Contains(low, AmdLongKeyword)))
      && (v == Some(Nvidia) <==> !Contains(low, IntelKeyword) && !Contains(low, AmdKeyword)
                                 && !Contains(low, AmdLongKeyword) && Contains(low, NvidiaKeyword))
      && (v.None? <==> !Contains(low, IntelKeyword) && !Contains(low, AmdKeyword)
                       && !Contains(low, AmdLongKeyword) && !Contains(low, NvidiaKeyword))
  {
    var low := Lower(vga);
    if Contains(low, IntelKeyword) then Some(Intel)
    else if Contains(low, AmdKeyword) || Contains(low, AmdLongKeyword) then Some(Amd)
    else if Contains(low, NvidiaKeyword) then Some(Nvidia)
    else None
  }

  /** `token.rsplit('.', 1)[0]`: the PCI address without its function
      number. */
  function BusRoot(token: string): (r: string)
    ensures '.' !in token ==> r == token
    ensures '.' in token ==> exists f :: token == r + "." + f && '.' !in f
  {
    var f := AfterLast(token, '.');
    AfterLastSuffix(token, '.');
    assert '.' in token ==> token == BeforeLast(token, '.') + "." + f;
    BeforeLast(token, '.')
  }

  /** `line.split('[')[-1].split(']')[0].strip()`: the text after the last
      `[` up to the next `]`, stripped. */
  function DeviceCode(line: string): (code: string)
    ensures |code| <= |line|
    ensures '[' !in code && ']' !in code
  {
    var tail := AfterLast(line, '[');
    AfterLastSuffix(line, '[');
    var inner := Split(tail, ']')[0];
    SplitPieces(tail, ']');
    SplitPrefix(tail, ']');
    Strip(inner)
  }

  /** The code is the stripped text between the last `[` of the line and
      the first `]` after it. */
  lemma DeviceCodeBetween(line: string, p: string, c: string, q: string)
    requires line == p + "[" + c + "]" + q
    requires '[' !in c + "]" + q && ']' !in c
    ensures DeviceCode(line) == Strip(c)
  {
    var tail := c + "]" + q;
    assert line == p + ['['] + tail;
    AfterLastOf(p, '[', tail);
    IndexOfAfter(c, ']', q);
    assert tail[..|c|] == c;
  }

  /** The first piece of a split is a prefix of the text. */
  lemma SplitPrefix(s: string, c: char)
    ensures |Split(s, c)[0]| <= |s| && Split(s, c)[0] == s[..|Split(s, c)[0]|]
  {
  }

  /** What one `lspci -nn` line contributes to the codes: nothing when it is
      empty or belongs to another bus, its code when it shares the root, and
      `IndexError` when it is non-empty but has no word. */
  function LineCode(line: string, root: string): (r: Result<Option<string>>)
    ensures r.Err? <==> Blank(line)
    ensures r == Ok(None) <==>
              line == [] || (FirstWord(line).Some? && BusRoot(FirstWord(line).value) != root)
    ensures r.Ok? && r.value.Some? ==>
              FirstWord(line).Some? && BusRoot(FirstWord(line).value) == root
              && r.value.value == DeviceCode(line)
  {
    if line == [] then Ok(None)
    else match FirstWord(line)
      case None => Err(IndexError)
      case Some(w) => if BusRoot(w) == root then Ok(Some(DeviceCode(line))) else Ok(None)
  }

  /** The codes loop: one entry per matching line, in line order. */
  function CollectCodes(lines: seq<string>, root: string): (r: Result<seq<string>>)
    ensures r.Ok? ==> |r.value| <= |lines|
    decreases |lines|
  {
    if lines == [] then Ok([])
    else match LineCode(lines[0], root)
      case Err(e) => Err(e)
      case Ok(c) =>
        match CollectCodes(lines[1..], root)
        case Err(e) => Err(e)
        case Ok(rest) => Ok((if c.Some? then [c.value] else []) + rest)
  }

  /** A non-empty line with no word in it. */
  predicate Blank(line: string) {
    line != [] && forall i :: 0 <= i < |line| ==> IsSpace(line[i])
  }

  /** Collecting fails exactly when some line is non-empty whitespace. */
  lemma {:induction false} CollectCodesFails(lines: seq<string>, root: string)
    ensures CollectCodes(lines, root).Err? <==> exists i :: 0 <= i < |lines| && Blank(lines[i])
    decreases |lines|
  {
    if lines != [] {
      CollectCodesFails(lines[1..], root);
      CollectCodesErrStep(lines, root);
      BlankShift(lines);
    }
  }

  /** The loop raises at the first line or in the rest. */
  lemma CollectCodesErrStep(lines: seq<string>, root: string)
    requires lines != []
    ensures CollectCodes(lines, root).Err? <==> LineCode(lines[0], root).Err? || CollectCodes(lines[1..], root).Err?
  {
  }

  /** Some line is blank exactly when the first one is or a later one is. */
  lemma BlankShift(lines: seq<string>)
    requires lines != []
    ensures (exists i :: 0 <= i < |lines| && Blank(lines[i]))
        <==> Blank(lines[0]) || exists i :: 0 <= i < |lines[1..]| && Blank(lines[1..][i])
  {
    if exists i :: 1 <= i < |lines| && Blank(lines[i]) {
      var i :| 1 <= i < |lines| && Blank(lines[i]);
      assert lines[1..][i - 1] == lines[i];
    }
    if exists i :: 0 <= i < |lines[1..]| && Blank(lines[1..][i]) {
      var i :| 0 <= i < |lines[1..]| && Blank(lines[1..][i]);
      assert lines[i + 1] == lines[1..][i];
    }
  }

  /** Proof step for `CollectCodesAppend`: `CollectCodes` unfolded once on
      a line followed by more lines. */
  lemma CollectCodesCons(line: string, rest: seq<string>, root: string)
    ensures CollectCodes([line] + rest, root)
         == match LineCode(line, root)
            case Err(e) => Err(e)
            case Ok(c) =>
              match CollectCodes(rest, root)
              case Err(e) => Err(e)
              case Ok(r) => Ok((if c.Some? then [c.value] else []) + r)
  {
    assert ([line] + rest)[0] == line;
    assert ([line] + rest)[1..] == rest;
  }

  /** Codes keep line order: the codes of two blocks of lines are the codes
      of the first followed by those of the second. */
  lemma {:induction false} CollectCodesAppend(a: seq<string>, b: seq<string>, root: string)
    requires CollectCodes(a, root).Ok? && CollectCodes(b, root).Ok?
    ensures CollectCodes(a + b, root) == Ok(CollectCodes(a, root).value + CollectCodes(b, root).value)
    decreases |a|
  {
    if a == [] {
      assert a + b == b;
      assert CollectCodes(a, root).value == [];
      assert [] + CollectCodes(b, root).value == CollectCodes(b, root).value;
    } else {
      var l, tail := a[0], a[1..];
      assert a == [l] + tail;
      CollectCodesCons(l, tail, root);
      CollectCodesAppend(tail, b, root);
      LinesAssoc(l, tail, b);
      CollectCodesCons(l, tail + b, root);
      var c := LineCode(l, root).value;
      SeqAssoc(if c.Some? then [c.value] else [], CollectCodes(tail, root).value, CollectCodes(b, root).value);
    }
  }

  lemma LinesAssoc(l: string, tail: seq<string>, b: seq<string>)
    ensures ([l] + tail) + b == [l] + (tail + b)
  {
  }

  lemma SeqAssoc(x: seq<string>, y: seq<string>, z: seq<string>)
    ensures (x + y) + z == x + (y + z)
  {
  }

  /** A line on another bus contributes nothing. */
  lemma ForeignLine(line: string, root: string, rest: seq<string>)
    requires line != [] && FirstWord(line).Some? && BusRoot(FirstWord(line).value) != root
    ensures CollectCodes([line] + rest, root) == CollectCodes(rest, root)
  {
    assert ([line] + rest)[1..] == rest;
    match CollectCodes(rest, root)
    case Err(_) =>
    case Ok(r) => assert [] + r == r;
  }

  /** A line on the VGA device's bus contributes its code ahead of the
      codes of the lines after it. */
  lemma MatchingLine(line: string, w: string, rest: seq<string>, root: string, cs: seq<string>)
    requires line != [] && FirstWord(line) == Some(w) && BusRoot(w) == root
    requires CollectCodes(rest, root) == Ok(cs)
    ensures CollectCodes([line] + rest, root) == Ok([DeviceCode(line)] + cs)
  {
    assert ([line] + rest)[0] == line;
    assert ([line] + rest)[1..] == rest;
  }

  /** Text with a `:` in it has a first word. */
  lemma ColonFieldsHaveWord(s: string)
    requires |Split(s, ':')| >= 2
    ensures FirstWord(s).Some?
  {
    var i := IndexOf(s, ':');
    assert i < |s| && s[i] == ':';
    assert !IsSpace(s[i]);
  }

  /** `_parse_gpu_info(vga_info, gpu_info)`. Empty VGA text keeps the
      defaults. Otherwise the model is the third `:`-field (`IndexError` when
      there is none), the vendor follows keyword precedence (an unknown one
      is a `ConfigurationError`), and the codes come from the `lspci -nn`
      lines on the VGA device's bus. */
  function ParseGpuInfo(vga: string, lspci: string): (r: Result<Gpu>)
    ensures vga == [] ==> r == Ok(NoGpu)
    ensures vga != [] && |Split(vga, ':')| < 3 ==> r == Err(IndexError)
    ensures vga != [] && |Split(vga, ':')| >= 3 && ClassifyVendor(vga).None?
            ==> r == Err(ConfigurationError("Unknown GPU type detected."))
    ensures r.Ok? && vga != [] ==>
              && r.value.present
              && r.value.model == Some(Strip(Split(vga, ':')[2]))
              && r.value.detail == Some(vga)
              && r.value.gpuType == ClassifyVendor(vga)
              && r.value.gpuType.Some?
              && |r.value.codes| <= |Split(lspci, '\n')|
    ensures r.Ok? && vga != [] ==>
              FirstWord(vga).Some?
              && CollectCodes(Split(lspci, '\n'), BusRoot(FirstWord(vga).value)) == Ok(r.value.codes)
    ensures vga != [] && |Split(vga, ':')| >= 3 && ClassifyVendor(vga).Some? ==>
              FirstWord(vga).Some?
              && (r.Ok? <==> CollectCodes(Split(lspci, '\n'), BusRoot(FirstWord(vga).value)).Ok?)
  {
    if vga == [] then Ok(NoGpu)
    else
      var fields := Split(vga, ':');
      if |fields| < 3 then Err(IndexError)
      else
        var model := Strip(fields[2]);
        ColonFieldsHaveWord(vga);
        match ClassifyVendor(vga)
        case None => Err(ConfigurationError("Unknown GPU type detected."))
        case Some(v) =>
          match FirstWord(vga)
          case None => Err(IndexError)
          case Some(w) =>
            match CollectCodes(Split(lspci, '\n'), BusRoot(w))
            case Err(e) => Err(e)
            case Ok(codes) => Ok(Gpu(true, Some(model), Some(vga), Some(v), codes))
  }

  const RetrievalFailed := ConfigurationError("Hardware information retrieval failed.")

  /** `log_hardware_info`: each probe output is `None` when the probe exits
      non-zero, which becomes one `ConfigurationError`; then the three
      parsers run in order. What the GPU parser yields is characterised by
      `ParseGpuInfo` and its partners `CollectCodes` and `MatchingLine`. */
  function LogHardwareInfo(board: Option<string>, cpu: Option<string>,
                           vga: Option<string>, lspci: Option<string>): (r: Result<Facts>)
    ensures (board.None? || cpu.None? || vga.None? || lspci.None?) ==> r == Err(RetrievalFailed)
    ensures r.Ok? ==>
              && r.value.motherboard == ParseField(board.value, "Product Name:")
              && r.value.cpu == ParseField(cpu.value, "Model name:")
              && Ok(r.value.gpu) == ParseGpuInfo(vga.value, lspci.value)
    ensures board.Some? && cpu.Some? && vga.Some? && lspci.Some? ==>
              (r.Ok? <==> ParseGpuInfo(vga.value, lspci.value).Ok?)
  {
    if board.None? || cpu.None? || vga.None? || lspci.None? then Err(RetrievalFailed)
    else
      var mb := ParseField(board.value, "Product Name:");
      var c := ParseField(cpu.value, "Model name:");
      match ParseGpuInfo(vga.value, lspci.value)
      case Err(e) => Err(e)
      case Ok(g) => Ok(Facts(c, mb, g))
  }
}

=== FILE: plans.dfy ===
/** What both `SystemConfigurator` variants build and carry out: the actions
    a planning branch performs on the spot, the command list
    (`self.commands`) and the rollback list (`self.rollback_commands`), and
    the phase that logs or executes the commands and rolls back on an
    exception. */
module Plans {

  import opened Types
  import Commands
  import GrubConfig
  import Vfio
  import opened CommandExecutor

  /** An action a planning branch performs while the lists are built, in
      dry runs too: `backup_grub_config()`, the call to
      `modify_grub_config()` whose result is queued, and
      `VFIO.ensure_vfio_modules()`. */
  datatype Immediate = BackupGrub | RewriteGrub | EnsureVfio

  const BackupFailed := ConfigurationError("Failed to backup /etc/default/grub")

  /** The exception each immediate action raises when it fails. */
  function ImmediateError(a: Immediate): Error {
    match a
    case BackupGrub => BackupFailed
    case RewriteGrub => GrubConfig.ModifyFailed
    case EnsureVfio => Vfio.EnsureFailed
  }

  /** What one planning branch contributes, in the order it happens: the
      actions it performs, the commands it queues, the rollbacks it
      registers. */
  datatype Entry = Entry(immediate: seq<Immediate>, commands: seq<Cmd>, rollbacks: seq<Cmd>)

  /** The GRUB branch: back up, rewrite, queue the rewrite, register the
      restore. */
  const GrubEntry := Entry([BackupGrub, RewriteGrub], [ModifyGrub], [RestoreGrub])

  /** The VFIO branch edits /etc/modules at once and queues nothing. */
  const VfioEntry := Entry([EnsureVfio], [], [])

  /** The kvm.conf branch: write vfio.conf with the card's ids, remove it on
      rollback. */
  function VfioConfEntry(codes: seq<string>): Entry {
    Entry([], [Shell(Commands.CreateVfioConf(codes))], [Shell(Commands.RemoveVfioConf)])
  }

  /** A driver branch: blacklist the vendor's modules, delete those lines
      on rollback. */
  function DriversEntry(v: Vendor): Entry {
    Entry([], [Shell(Commands.BlacklistDrivers(v.Name()))], [Shell(Commands.UnblacklistDrivers(v.Name()))])
  }

  /** The planning branches, named by what they configure. */
  datatype Action = GrubAction | VfioAction | VfioConfAction | BlacklistAction(vendor: Vendor)

  /** What a branch contributes; `codes` are the GPU's device codes. */
  function EntryOf(a: Action, codes: seq<string>): Entry {
    match a
    case GrubAction => GrubEntry
    case VfioAction => VfioEntry
    case VfioConfAction => VfioConfEntry(codes)
    case BlacklistAction(v) => DriversEntry(v)
  }

  function EntriesOf(actions: seq<Action>, codes: seq<string>): (es: seq<Entry>)
    ensures |es| == |actions|
  {
    seq(|actions|, i requires 0 <= i < |actions| => EntryOf(actions[i], codes))
  }

  /** The two lists of a configurator. */
  datatype Plan = Plan(commands: seq<Cmd>, rollbacks: seq<Cmd>)

  const EmptyPlan := Plan([], [])

  /** All that a sequence of branches contributes when none of them fails. */
  function Flatten(entries: seq<Entry>): (e: Entry)
    decreases |entries|
  {
    if entries == [] then Entry([], [], [])
    else
      var rest := Flatten(entries[1..]);
      Entry(entries[0].immediate + rest.immediate,
            entries[0].commands + rest.commands,
            entries[0].rollbacks + rest.rollbacks)
  }

  function PlanOf(e: Entry): Plan {
    Plan(e.commands, e.rollbacks)
  }

  /** No immediate action of the branch fails. */
  predicate Succeeds(e: Entry, immFails: Immediate -> bool) {
    forall i :: 0 <= i < |e.immediate| ==> !immFails(e.immediate[i])
  }

  /** The immediate actions of one branch, run in order until one raises:
      the actions started and the exception that stopped them. */
  function Perform(acts: seq<Immediate>, immFails: Immediate -> bool): (r: (seq<Immediate>, Option<Error>))
    ensures |r.0| <= |acts| && r.0 == acts[..|r.0|]
    ensures r.1.None? <==> forall i :: 0 <= i < |acts| ==> !immFails(acts[i])
    ensures r.1.None? ==> r.0 == acts
    ensures r.1.Some? ==>
              && r.0 != [] && immFails(r.0[|r.0| - 1])
              && r.1 == Some(ImmediateError(r.0[|r.0| - 1]))
              && forall i :: 0 <= i < |r.0| - 1 ==> !immFails(r.0[i])
    decreases |acts|
  {
    if acts == [] then ([], None)
    else if immFails(acts[0]) then ([acts[0]], Some(ImmediateError(acts[0])))
    else
      var rest := Perform(acts[1..], immFails);
      assert forall i :: 1 <= i < |acts| ==> acts[i] == acts[1..][i - 1];
      ([acts[0]] + rest.0, rest.1)
  }

  /** The lists built so far, the immediate actions performed, and the
      exception that ended planning, if any. */
  datatype Planning = Planning(plan: Plan, performed: seq<Immediate>, error: Option<Error>)

  /** The planning branches that fire, taken in order; an exception in one
      of them ends planning with the lists as they stand. */
  function PlanEntries(entries: seq<Entry>, immFails: Immediate -> bool): (r: Planning)
    ensures r.error.None? ==> r.plan == PlanOf(Flatten(entries)) && r.performed == Flatten(entries).immediate
    ensures r.error.Some? ==>
              r.performed != [] && immFails(r.performed[|r.performed| - 1])
              && r.error == Some(ImmediateError(r.performed[|r.performed| - 1]))
    decreases |entries|
  {
    if entries == [] then Planning(EmptyPlan, [], None)
    else
      var (done, err) := Perform(entries[0].immediate, immFails);
      if err.Some? then Planning(EmptyPlan, done, err)
      else
        var rest := PlanEntries(entries[1..], immFails);
        Planning(Plan(entries[0].commands + rest.plan.commands, entries[0].rollbacks + rest.plan.rollbacks),
                 done + rest.performed, rest.error)
  }

  /** The index of the first branch with a failing immediate action, or the
      number of branches when there is none. */
  function FirstFailure(entries: seq<Entry>, immFails: Immediate -> bool): (k: nat)
    ensures k <= |entries|
    ensures forall j :: 0 <= j < k ==> Succeeds(entries[j], immFails)
    ensures k < |entries| ==> !Succeeds(entries[k], immFails)
    decreases |entries|
  {
    if entries == [] then 0
    else if !Succeeds(entries[0], immFails) then 0
    else
      var k := FirstFailure(entries[1..], immFails);
      assert forall j :: 1 <= j < |entries| ==> entries[j] == entries[1..][j - 1];
      k + 1
  }

  /** Planning registers exactly what the branches before the first failing
      one contribute; it raises exactly when some branch fails, with that
      branch's exception, and otherwise it has performed every action and
      built the whole of both lists. */
  lemma {:induction false} PlanEntriesStops(entries: seq<Entry>, immFails: Immediate -> bool)
    ensures var p := PlanEntries(entries, immFails);
      var k := FirstFailure(entries, immFails);
      && (p.error.Some? <==> k < |entries|)
      && p.plan == PlanOf(Flatten(entries[..k]))
      && (p.error.None? ==> p.performed == Flatten(entries).immediate)
      && (p.error.Some? ==> p.error == Perform(entries[k].immediate, immFails).1)
    decreases |entries|
  {
    if entries != [] && Succeeds(entries[0], immFails) {
      var tail := entries[1..];
      PlanEntriesStops(tail, immFails);
      var k := FirstFailure(tail, immFails);
      assert FirstFailure(entries, immFails) == k + 1;
      FlattenCons(entries, k + 1);
      assert entries[k + 1..] == tail[k..];
    } else if entries != [] {
      assert entries[..0] == [];
    }
  }

  /** Flattening a prefix of length `n >= 1` is the first branch followed by
      the flattened prefix of the rest. */
  lemma FlattenCons(entries: seq<Entry>, n: nat)
    requires 1 <= n <= |entries|
    ensures var rest := Flatten(entries[1..][..n - 1]);
      Flatten(entries[..n]) == Entry(entries[0].immediate + rest.immediate,
                                     entries[0].commands + rest.commands,
                                     entries[0].rollbacks + rest.rollbacks)
  {
    assert entries[..n][1..] == entries[1..][..n - 1];
  }

  /** When every branch succeeds, planning builds the flattened lists. */
  lemma PlanEntriesComplete(entries: seq<Entry>, immFails: Immediate -> bool)
    requires forall k :: 0 <= k < |entries| ==> Succeeds(entries[k], immFails)
    ensures PlanEntries(entries, immFails) == Planning(PlanOf(Flatten(entries)), Flatten(entries).immediate, None)
  {
    PlanEntriesStops(entries, immFails);
    assert entries[..|entries|] == entries;
  }

  /** How a `configure_system` call ends. */
  datatype Outcome =
    /** "System configured successfully." and the post-run checks passed. */
    | Configured
    /** The unmet-preconditions branch: nothing is planned. */
    | PreconditionsUnmet
    /** "All preconditions are already met. No configuration needed." */
    | AlreadyConfigured
    /** The exception re-raised after the rollback pass. */
    | Raised(error: Error)

  /** The observable effects of one `configure_system` call. */
  datatype Report = Report(
    performed: seq<Immediate>,
    plan: Plan,
    logged: seq<Cmd>,
    executed: seq<Cmd>,
    rolledBack: seq<RollbackEntry>,
    outcome: Outcome)

  /** The commands of the rollback pass, in the order they ran. */
  function RolledBackCommands(log: seq<RollbackEntry>): seq<Cmd> {
    seq(|log|, i requires 0 <= i < |log| => log[i].command)
  }

  /** The `except` clause: every registered rollback runs, then `error` is
      re-raised. */
  function Abort(performed: seq<Immediate>, plan: Plan, error: Error, fails: Cmd -> bool): (r: Report)
    ensures RolledBackCommands(r.rolledBack) == plan.rollbacks
    ensures r.executed == [] && r.outcome == Raised(error)
  {
    var log := Rollback(plan.rollbacks, fails);
    assert RolledBackCommands(log) == plan.rollbacks;
    Report(performed, plan, [], [], log, Raised(error))
  }

  /** The end of `configure_system` once the lists are built: list the
      commands in a dry run or execute them until one raises, then run the
      post-run checks (`check_iommu_enabled()` and the second
      `compare_states()`), whose exception is `postCheck`. Any exception
      triggers the rollback pass. */
  function Finish(performed: seq<Immediate>, plan: Plan, dryRun: bool,
                  fails: Cmd -> bool, postCheck: Option<Error>): (r: Report)
    ensures r.performed == performed && r.plan == plan
    ensures dryRun ==> r.executed == [] && r.logged == plan.commands
    ensures !dryRun ==> r.logged == [] && |r.executed| <= |plan.commands| && r.executed == plan.commands[..|r.executed|]
    ensures r.outcome.Raised? <==>
              postCheck.Some? || (!dryRun && exists i :: 0 <= i < |plan.commands| && fails(plan.commands[i]))
    ensures r.outcome.Raised? ==> RolledBackCommands(r.rolledBack) == plan.rollbacks
    ensures !r.outcome.Raised? ==> r.outcome == Configured && r.rolledBack == []
    ensures !r.outcome.Raised? && !dryRun ==> r.executed == plan.commands
  {
    if dryRun then
      match postCheck
      case None => Report(performed, plan, plan.commands, [], [], Configured)
      case Some(e) => Abort(performed, plan, e, fails).(logged := plan.commands)
    else
      var run := Execute(plan.commands, fails);
      ExecuteStopsAtFirstFailure(plan.commands, fails);
      if run.failed then
        Abort(performed, plan, CommandFailed(run.executed[|run.executed| - 1]), fails).(executed := run.executed)
      else match postCheck
        case None => Report(performed, plan, [], run.executed, [], Configured)
        case Some(e) => Abort(performed, plan, e, fails).(executed := run.executed)
  }

  /** A live run that fails stops at the first failing command, re-raises
      its failure and rolls back everything registered, in registration
      order. */
  lemma LiveFailureStops(performed: seq<Immediate>, plan: Plan, fails: Cmd -> bool,
                         postCheck: Option<Error>, k: nat)
    requires k < |plan.commands| && fails(plan.commands[k])
    requires forall j :: 0 <= j < k ==> !fails(plan.commands[j])
    ensures var r := Finish(performed, plan, false, fails, postCheck);
      && r.executed == plan.commands[..k + 1]
      && r.outcome == Raised(CommandFailed(plan.commands[k]))
      && RolledBackCommands(r.rolledBack) == plan.rollbacks
  {
    var run := Execute(plan.commands, fails);
    ExecuteStopsAtFirstFailure(plan.commands, fails);
    assert run.failed;
    assert |run.executed| - 1 == k;
  }

  /** A dry run executes nothing, yet a post-run check that raises still
      rolls back everything registered. */
  lemma DryRunRollsBack(performed: seq<Immediate>, plan: Plan, fails: Cmd -> bool, e: Error)
    ensures var r := Finish(performed, plan, true, fails, Some(e));
      && r.executed == []
      && r.outcome == Raised(e)
      && RolledBackCommands(r.rolledBack) == plan.rollbacks
  {
  }
}

=== FILE: preconditions.dfy ===
/** `SystemPreconditions`: run each declared check's shell probe and compare
    its stripped output with the expectations, stopping at the first check
    that fails. Probe results come from the oracle `probe`. */
module Preconditions {

  import opened Types
  import opened Strings
  import HardwareInfo

  /** One entry of `settings['preconditions']['commands']` or
      `settings['desired_state']['commands']`; an absent key is `None`. */
  datatype Condition = Condition(
    description: string,
    command: string,
    expectedOutput: Option<string>,
    expectedOutputContains: Option<string>,
    failureMessage: string)

  /** What `subprocess.check_output(command, shell=True, stderr=PIPE)`
      observes. */
  datatype ProbeResult = ProbeResult(exitCode: int, stdout: string, stderr: string)

  /** Python truthiness of an optional string: present and non-empty. */
  predicate Truthy(o: Option<string>) {
    o.Some? && o.value != ""
  }

  /** The verdict on one condition. */
  datatype Verdict =
    | Passed
    /** `ConfigurationError(failure_message)`; `logged` is the stderr text
        logged when the probe exited non-zero. */
    | Failed(message: string, logged: Option<string>)

  const NoStderr := "No stderr output"

  /** The body of the loop in `check_command_preconditions` for one
      condition. */
  function Evaluate(c: Condition, p: ProbeResult): (v: Verdict)
    ensures v.Passed? <==>
              && p.exitCode == 0
              && (!Truthy(c.expectedOutput) || c.expectedOutput.value == Strip(p.stdout))
              && (!Truthy(c.expectedOutputContains) || Contains(Strip(p.stdout), c.expectedOutputContains.value))
    ensures v.Failed? ==> v.message == c.failureMessage
    ensures v.Failed? ==> (v.logged.Some? <==> p.exitCode != 0)
    ensures v.Failed? && p.exitCode != 0 ==>
              v.logged == Some(if p.stderr != "" then Strip(p.stderr) else NoStderr)
  {
    if p.exitCode != 0 then
      Failed(c.failureMessage, Some(if p.stderr != "" then Strip(p.stderr) else NoStderr))
    else
      var out := Strip(p.stdout);
      if Truthy(c.expectedOutput) && out != c.expectedOutput.value then Failed(c.failureMessage, None)
      else if Truthy(c.expectedOutputContains) && !Contains(out, c.expectedOutputContains.value)
      then Failed(c.failureMessage, None)
      else Passed
  }

  /** An empty expectation is no expectation, each on its own and both
      together. */
  lemma EmptyExpectationIgnored(c: Condition, p: ProbeResult)
    ensures c.expectedOutput == Some("") ==> Evaluate(c, p) == Evaluate(c.(expectedOutput := None), p)
    ensures c.expectedOutputContains == Some("") ==>
              Evaluate(c, p) == Evaluate(c.(expectedOutputContains := None), p)
    ensures c.expectedOutput == Some("") && c.expectedOutputContains == Some("") ==>
              Evaluate(c, p) == Evaluate(c.(expectedOutput := None, expectedOutputContains := None), p)
  {
  }

  /** A run of `check_command_preconditions`: the conditions whose probe
      ran, in order, and the error that ended the run, if any. */
  datatype CheckRun = CheckRun(probed: seq<Condition>, error: Option<Error>)

  function CheckCommandPreconditions(conds: seq<Condition>, probe: string -> ProbeResult): (r: CheckRun)
    ensures |r.probed| <= |conds| && r.probed == conds[..|r.probed|]
    decreases |conds|
  {
    if conds == [] then CheckRun([], None)
    else
      match Evaluate(conds[0], probe(conds[0].command))
      case Failed(msg, _) => CheckRun([conds[0]], Some(ConfigurationError(msg)))
      case Passed =>
        var rest := CheckCommandPreconditions(conds[1..], probe);
        CheckRun([conds[0]] + rest.probed, rest.error)
  }

  /** The condition at `i` passes. */
  predicate PassesAt(conds: seq<Condition>, probe: string -> ProbeResult, i: int)
    requires 0 <= i < |conds|
  {
    Evaluate(conds[i], probe(conds[i].command)).Passed?
  }

  /** Checking succeeds exactly when every condition passes, and then
      every condition was probed. */
  lemma {:induction false} SucceedsIffAllPass(conds: seq<Condition>, probe: string -> ProbeResult)
    ensures var r := CheckCommandPreconditions(conds, probe);
      && (r.error.None? <==> forall i :: 0 <= i < |conds| ==> PassesAt(conds, probe, i))
      && (r.error.None? ==> r.probed == conds)
    decreases |conds|
  {
    if conds != [] && PassesAt(conds, probe, 0) {
      var tail := conds[1..];
      SucceedsIffAllPass(tail, probe);
      var rest := CheckCommandPreconditions(tail, probe);
      assert CheckCommandPreconditions(conds, probe) == CheckRun([conds[0]] + rest.probed, rest.error);
      if forall i :: 0 <= i < |tail| ==> PassesAt(tail, probe, i) {
        assert conds == [conds[0]] + tail;
        forall i | 1 <= i < |conds|
          ensures PassesAt(conds, probe, i)
        {
          PassesShift(conds, probe, i);
        }
      } else {
        var i :| 0 <= i < |tail| && !PassesAt(tail, probe, i);
        PassesShift(conds, probe, i + 1);
      }
    }
  }

  lemma PassesShift(conds: seq<Condition>, probe: string -> ProbeResult, i: int)
    requires 1 <= i < |conds|
    ensures PassesAt(conds[1..], probe, i - 1) <==> PassesAt(conds, probe, i)
  {
    assert conds[1..][i - 1] == conds[i];
  }

  /** Checking is fail-fast: a failing run stops at the first failing
      condition, raises its failure message, and probes nothing after it. */
  lemma {:induction false} FailFast(conds: seq<Condition>, probe: string -> ProbeResult)
    ensures var r := CheckCommandPreconditions(conds, probe);
      r.error.Some? ==>
        && |r.probed| >= 1
        && !PassesAt(conds, probe, |r.probed| - 1)
        && r.error == Some(ConfigurationError(conds[|r.probed| - 1].failureMessage))
        && forall i :: 0 <= i < |r.probed| - 1 ==> PassesAt(conds, probe, i)
    decreases |conds|
  {
    if conds != [] && PassesAt(conds, probe, 0) {
      var tail := conds[1..];
      FailFast(tail, probe);
      var rest := CheckCommandPreconditions(tail, probe);
      var r := CheckCommandPreconditions(conds, probe);
      assert r == CheckRun([conds[0]] + rest.probed, rest.error);
      if r.error.Some? {
        PassesShift(conds, probe, |rest.probed|);
        assert conds[|r.probed| - 1] == tail[|rest.probed| - 1];
        forall i | 1 <= i < |r.probed| - 1
          ensures PassesAt(conds, probe, i)
        {
          PassesShift(conds, probe, i);
        }
      }
    }
  }

  /** `check()`: the preconditions, then the hardware facts, returned only
      when every precondition passed. `hardware` is what
      `HardwareInfo().log_hardware_info()` returns. Its meaning is carried
      by `CheckIgnoresHardwareOnFailure` and `FailFast`. */
  function Check(conds: seq<Condition>, probe: string -> ProbeResult,
                 hardware: Result<HardwareInfo.Facts>): (r: Result<HardwareInfo.Facts>)
    ensures CheckCommandPreconditions(conds, probe).error.Some? ==>
              r == Err(CheckCommandPreconditions(conds, probe).error.value)
    ensures CheckCommandPreconditions(conds, probe).error.None? ==> r == hardware
  {
    match CheckCommandPreconditions(conds, probe).error
    case Some(e) => Err(e)
    case None => hardware
  }

  /** The hardware facts play no part once a precondition fails. */
  lemma CheckIgnoresHardwareOnFailure(conds: seq<Condition>, probe: string -> ProbeResult,
                                      h1: Result<HardwareInfo.Facts>, h2: Result<HardwareInfo.Facts>)
    requires exists i :: 0 <= i < |conds| && !PassesAt(conds, probe, i)
    ensures Check(conds, probe, h1) == Check(conds, probe, h2)
    ensures Check(conds, probe, h1).Err?
  {
    SucceedsIffAllPass(conds, probe);
  }

  /** `compare_states()` and `check_desired_state()`: the desired-state
      conditions checked the same way. `check_command_preconditions` returns
      nothing, so on success both return `None`. */
  function CompareStates(desired: seq<Condition>, probe: string -> ProbeResult): (r: Result<Option<seq<string>>>)
    ensures r.Ok? ==> r.value == None
    ensures r.Err? <==> CheckCommandPreconditions(desired, probe).error.Some?
  {
    match CheckCommandPreconditions(desired, probe).error
    case Some(e) => Err(e)
    case None => Ok(None)
  }

  /** The desired state either raises on its first failing condition or
      reports no discrepancies. */
  lemma CompareStatesNeverLists(desired: seq<Condition>, probe: string -> ProbeResult)
    ensures CompareStates(desired, probe) == Ok(None)
         <==> forall i :: 0 <= i < |desired| ==> PassesAt(desired, probe, i)
  {
    SucceedsIffAllPass(desired, probe);
  }
}

=== FILE: root_configurator.dfy ===
/** `SystemConfigurator.configure_system` of the top-level variant: when
    some precondition is unmet, each of six independent tests on the exact
    precondition descriptions may fire its branch, in a fixed order; then
    the bootloader is determined and its (empty) command list appended, and
    the commands are listed or executed. */
module RootConfigurator {

  import opened Types
  import opened Strings
  import HardwareInfo
  import Bootloader
  import opened Plans

  const GrubCheck := "Check if GRUB has IOMMU settings"
  const VfioCheck := "Check if VFIO modules are loaded"
  const KvmCheck := "Check if kvm.conf has Nvidia Card settings"
  const AmdCheck := "Check if AMD drivers are blacklisted"
  const NvidiaCheck := "Check if NVIDIA drivers are blacklisted"
  const IntelCheck := "Check if Intel drivers are blacklisted"

  /** The position of a branch's `if` statement among the six. */
  function Rank(a: Action): nat {
    match a
    case GrubAction => 0
    case VfioAction => 1
    case VfioConfAction => 2
    case BlacklistAction(Amd) => 3
    case BlacklistAction(Nvidia) => 4
    case BlacklistAction(Intel) => 5
  }

  /** The six `if` statements, each testing exact membership of its
      description in the unmet preconditions, taken in source order. */
  function Fired(unmet: seq<string>, gpu: Option<Vendor>): (fired: seq<Action>)
    ensures |fired| <= 6
    ensures forall i, j :: 0 <= i < j < |fired| ==> Rank(fired[i]) < Rank(fired[j])
  {
    (if GrubCheck in unmet then [GrubAction] else [])
    + (if VfioCheck in unmet then [VfioAction] else [])
    + (if KvmCheck in unmet && gpu == Some(Nvidia) then [VfioConfAction] else [])
    + (if AmdCheck in unmet && gpu == Some(Amd) then [BlacklistAction(Amd)] else [])
    + (if NvidiaCheck in unmet && gpu == Some(Nvidia) then [BlacklistAction(Nvidia)] else [])
    + (if IntelCheck in unmet && gpu == Some(Intel) then [BlacklistAction(Intel)] else [])
  }

  /** The GRUB, VFIO and kvm.conf branches fire exactly when their
      description is unmet, the last only for an NVIDIA GPU. */
  lemma FiredExactly(unmet: seq<string>, gpu: Option<Vendor>)
    ensures GrubAction in Fired(unmet, gpu) <==> GrubCheck in unmet
    ensures VfioAction in Fired(unmet, gpu) <==> VfioCheck in unmet
    ensures VfioConfAction in Fired(unmet, gpu) <==> KvmCheck in unmet && gpu == Some(Nvidia)
  {
  }

  /** A driver branch fires exactly when its description is unmet and the
      GPU is of its vendor. */
  lemma FiredDrivers(unmet: seq<string>, gpu: Option<Vendor>)
    ensures BlacklistAction(Amd) in Fired(unmet, gpu) <==> AmdCheck in unmet && gpu == Some(Amd)
    ensures BlacklistAction(Nvidia) in Fired(unmet, gpu) <==> NvidiaCheck in unmet && gpu == Some(Nvidia)
    ensures BlacklistAction(Intel) in Fired(unmet, gpu) <==> IntelCheck in unmet && gpu == Some(Intel)
  {
  }

  /** `get_bootloader_specific_commands(bootloader)`: every bootloader name,
      known or not, contributes no command. */
  function BootloaderCommands(name: string): (cmds: seq<Cmd>)
    ensures |cmds| == 0
  {
    if name == "grub-bios" then []
    else if name == "grub-uefi" then []
    else if name == "systemd-boot" then []
    else if name == "grub-uefi-secure" then []
    else []
  }

  /** What the environment answers during one call. */
  datatype Host = Host(
    /** The hardware facts and the unmet preconditions, or the exception
        raised while checking them. */
    checked: Result<(HardwareInfo.Facts, seq<string>)>,
    /** Which immediate actions raise. */
    immFails: Immediate -> bool,
    /** The output of `efibootmgr -v`, `None` when it exits non-zero. */
    efibootmgr: Option<string>,
    /** Which commands raise when executed or rolled back. */
    fails: Cmd -> bool,
    /** The exception of `check_iommu_enabled()` or of the second
        `compare_states()`, if either raises. */
    postCheck: Option<Error>)

  /** `configure_system()` with `check()` returning the pair the call site
      unpacks, and the bootloader probe failure raised as
      `ConfigurationError`. */
  function ConfigureSystem(host: Host, dryRun: bool): (r: Report)
    ensures r.outcome == AlreadyConfigured <==> host.checked.Ok? && host.checked.value.1 == []
    ensures r.outcome != PreconditionsUnmet
    ensures dryRun ==> r.executed == []
    ensures r.outcome == Configured ==> r.rolledBack == []
    ensures r.outcome.Raised? ==> RolledBackCommands(r.rolledBack) == r.plan.rollbacks
  {
    match host.checked
    case Err(e) => Abort([], EmptyPlan, e, host.fails)
    case Ok((facts, unmet)) =>
      if unmet == [] then Report([], EmptyPlan, [], [], [], AlreadyConfigured)
      else
        var es := EntriesOf(Fired(unmet, facts.gpu.gpuType), facts.gpu.codes);
        Proceed(PlanEntries(es, host.immFails), host, dryRun)
  }

  /** The rest of the call once planning has ended: the bootloader step,
      then the commands. */
  function Proceed(p: Planning, host: Host, dryRun: bool): (r: Report)
    ensures r.plan == p.plan
    ensures p.error.Some? ==> r.outcome == Raised(p.error.value)
    ensures p.error.None? && Bootloader.DetermineBootloader(host.efibootmgr).Err? ==>
              r.outcome == Raised(Bootloader.DetermineBootloader(host.efibootmgr).error)
    ensures r.outcome.Raised? ==> RolledBackCommands(r.rolledBack) == r.plan.rollbacks
    ensures dryRun ==> r.executed == []
    ensures r.outcome == Configured ==> r.rolledBack == []
    ensures r.outcome != AlreadyConfigured && r.outcome != PreconditionsUnmet
  {
    if p.error.Some? then Abort(p.performed, p.plan, p.error.value, host.fails)
    else match Bootloader.DetermineBootloader(host.efibootmgr)
      case Err(e) => Abort(p.performed, p.plan, e, host.fails)
      case Ok(boot) =>
        var plan := Plan(p.plan.commands + BootloaderCommands(boot.Name()), p.plan.rollbacks);
        assert plan == p.plan;
        Finish(p.performed, plan, dryRun, host.fails, host.postCheck)
  }

  /** `configure_system()` as written: `check()` returns the hardware
      dictionary, whose three keys cannot be unpacked into two names, so
      the call raises `ValueError` before anything is planned; an exception
      from `check()` itself is re-raised as it is. Either way the rollback
      list is still empty. */
  function ConfigureSystemAsWritten(checked: Result<HardwareInfo.Facts>, fails: Cmd -> bool): (r: Report)
    ensures r.outcome.Raised? && r.performed == [] && r.plan == EmptyPlan
    ensures r.executed == [] && r.logged == [] && r.rolledBack == []
    ensures checked.Ok? ==> r.outcome == Raised(ValueError)
    ensures checked.Err? ==> r.outcome == Raised(checked.error)
  {
    match checked
    case Err(e) => Abort([], EmptyPlan, e, fails)
    case Ok(_) => Abort([], EmptyPlan, ValueError, fails)
  }

  /** As written, even a run whose preconditions all pass never configures
      anything. */
  lemma AsWrittenNeverConfigures(facts: HardwareInfo.Facts, fails: Cmd -> bool)
    ensures ConfigureSystemAsWritten(Ok(facts), fails).outcome == Raised(ValueError)
    ensures ConfigureSystemAsWritten(Ok(facts), fails).performed == []
  {
  }

  /** With the pair unpacked, an unmet GRUB precondition on an AMD machine
      whose firmware is identified gets the GRUB branch planned and
      carried out. */
  lemma CorrectedPlansGrub(facts: HardwareInfo.Facts, immFails: Immediate -> bool, output: string,
                           fails: Cmd -> bool)
    requires facts.gpu.gpuType == Some(Amd)
    requires !immFails(BackupGrub) && !immFails(RewriteGrub)
    requires Bootloader.DetermineBootloader(Some(output)).Ok?
    ensures var host := Host(Ok((facts, [GrubCheck])), immFails, Some(output), fails, None);
      var r := ConfigureSystem(host, false);
      && r.performed == [BackupGrub, RewriteGrub]
      && r.plan == Plan([ModifyGrub], [RestoreGrub])
      && (r.outcome == Configured <==> !fails(ModifyGrub))
  {
    var fired := Fired([GrubCheck], Some(Amd));
    assert fired == [GrubAction] by {
      ChecksDistinct();
    }
    var es := EntriesOf(fired, facts.gpu.codes);
    assert es == [GrubEntry];
    PlanEntriesComplete(es, immFails);
    assert es[1..] == [];
  }

  /** The queued GRUB command is the `None` that `modify_grub_config()`
      returns, and executing it raises. With `fails(ModifyGrub)` standing
      for that exception, a live run of the GRUB branch executes that one
      command, re-raises its failure and rolls back `RestoreGrub`: it never
      configures. */
  lemma LiveGrubRunRaises(facts: HardwareInfo.Facts, immFails: Immediate -> bool, output: string,
                          fails: Cmd -> bool, postCheck: Option<Error>)
    requires facts.gpu.gpuType == Some(Amd)
    requires !immFails(BackupGrub) && !immFails(RewriteGrub)
    requires Bootloader.DetermineBootloader(Some(output)).Ok?
    requires fails(ModifyGrub)
    ensures var host := Host(Ok((facts, [GrubCheck])), immFails, Some(output), fails, postCheck);
      var r := ConfigureSystem(host, false);
      && r.executed == [ModifyGrub]
      && r.outcome == Raised(CommandFailed(ModifyGrub))
      && RolledBackCommands(r.rolledBack) == [RestoreGrub]
  {
    var fired := Fired([GrubCheck], Some(Amd));
    assert fired == [GrubAction] by {
      ChecksDistinct();
    }
    var es := EntriesOf(fired, facts.gpu.codes);
    assert es == [GrubEntry];
    PlanEntriesComplete(es, immFails);
    assert es[1..] == [];
    var plan := Plan([ModifyGrub], [RestoreGrub]);
    var p := PlanEntries(es, immFails);
    LiveFailureStops(p.performed, plan, fails, postCheck, 0);
  }

  /** The GRUB branch as written: the `GrubConfig` class of this variant
      defines no `restore_grub_config`, so once the backup and the rewrite
      are done, looking the method up raises `AttributeError`. The rewrite's
      result is queued by then, and no rollback is registered. */
  function GrubBranchAsWritten(immFails: Immediate -> bool): (p: Planning)
    ensures p.error.Some? && p.plan.rollbacks == []
    ensures !immFails(BackupGrub) && !immFails(RewriteGrub) ==>
              p == Planning(Plan([ModifyGrub], []), [BackupGrub, RewriteGrub], Some(AttributeError))
    ensures immFails(BackupGrub) ==> p == Planning(EmptyPlan, [BackupGrub], Some(BackupFailed))
  {
    var (done, err) := Perform(GrubEntry.immediate, immFails);
    if err.Some? then Planning(EmptyPlan, done, err)
    else Planning(Plan(GrubEntry.commands, []), done, Some(AttributeError))
  }

  /** Where the backup and the rewrite succeed, the GRUB branch as written
      raises `AttributeError` with nothing to roll back, while the branch
      with a restore registers `RestoreGrub` and raises nothing. */
  lemma GrubBranchMissingRestore(immFails: Immediate -> bool)
    requires !immFails(BackupGrub) && !immFails(RewriteGrub)
    ensures GrubBranchAsWritten(immFails).error == Some(AttributeError)
    ensures GrubBranchAsWritten(immFails).plan.rollbacks == []
    ensures PlanEntries([GrubEntry], immFails)
         == Planning(Plan([ModifyGrub], [RestoreGrub]), [BackupGrub, RewriteGrub], None)
  {
    PlanEntriesComplete([GrubEntry], immFails);
  }

  /** The six descriptions differ from one another. */
  lemma ChecksDistinct()
    ensures GrubCheck != VfioCheck && GrubCheck != KvmCheck && GrubCheck != AmdCheck
    ensures GrubCheck != NvidiaCheck && GrubCheck != IntelCheck
  {
    assert GrubCheck[9] != VfioCheck[9];
    assert GrubCheck[9] != KvmCheck[9];
    assert GrubCheck[9] != AmdCheck[9];
    assert GrubCheck[9] != NvidiaCheck[9];
    assert GrubCheck[9] != IntelCheck[9];
  }

  /** Nothing happens when every precondition is met. */
  lemma AllMetDoesNothing(facts: HardwareInfo.Facts, host: Host, dryRun: bool)
    requires host.checked == Ok((facts, []))
    ensures ConfigureSystem(host, dryRun) == Report([], EmptyPlan, [], [], [], AlreadyConfigured)
  {
  }

  /** Membership is exact: the key phrase alone, without "Check if ",
      fires no branch. */
  lemma ExactDescriptionsOnly(gpu: Option<Vendor>)
    ensures Fired(["GRUB has IOMMU settings"], gpu) == []
  {
    var d := "GRUB has IOMMU settings";
    assert d != GrubCheck && d != VfioCheck && d != KvmCheck by {
      assert d[0] != GrubCheck[0];
    }
    assert d != AmdCheck && d != NvidiaCheck && d != IntelCheck by {
      assert d[0] != AmdCheck[0];
    }
  }

  /** With every precondition unmet, several branches fire in one run, in
      source order: GRUB, VFIO, kvm.conf for an NVIDIA card only, then the
      driver branch of the detected vendor and of no other. */
  lemma AllUnmetFires(unmet: seq<string>, v: Vendor)
    requires GrubCheck in unmet && VfioCheck in unmet && KvmCheck in unmet
    requires AmdCheck in unmet && NvidiaCheck in unmet && IntelCheck in unmet
    ensures Fired(unmet, Some(v))
         == [GrubAction, VfioAction] + (if v == Nvidia then [VfioConfAction] else []) + [BlacklistAction(v)]
  {
  }

  /** Once planning succeeds, the bootloader step adds no command: the
      queued commands are exactly those of the fired branches, with no
      `update-initramfs` at the end. An undetermined bootloader raises and
      rolls back everything registered. */
  lemma BootloaderAddsNothing(host: Host, dryRun: bool)
    requires host.checked.Ok? && host.checked.value.1 != []
    requires var facts := host.checked.value.0;
      var es := EntriesOf(Fired(host.checked.value.1, facts.gpu.gpuType), facts.gpu.codes);
      forall k :: 0 <= k < |es| ==> Succeeds(es[k], host.immFails)
    ensures var facts := host.checked.value.0;
      var es := EntriesOf(Fired(host.checked.value.1, facts.gpu.gpuType), facts.gpu.codes);
      var r := ConfigureSystem(host, dryRun);
      && r.plan == PlanOf(Flatten(es))
      && (Bootloader.DetermineBootloader(host.efibootmgr).Err? ==>
            && r.outcome == Raised(Bootloader.DetermineBootloader(host.efibootmgr).error)
            && r.executed == [])
  {
    var facts := host.checked.value.0;
    var es := EntriesOf(Fired(host.checked.value.1, facts.gpu.gpuType), facts.gpu.codes);
    PlanEntriesComplete(es, host.immFails);
  }
}

=== FILE: strings.dfy ===
/** The parts of Python's `str` that the configurator relies on, over
    `seq<char>`: `in` (substring), `startswith`, `lower`, `strip`,
    `split(sep)`, `split()`, `splitlines()` and `sep.join(...)`. */
module Strings {

  import opened Types

  /** Python `str.isspace()` for one code point. */
  predicate IsSpace(c: char) {
    || ('\t' <= c <= '\r')
    || ('\U{1c}' <= c <= ' ')
    || c == '\U{85}' || c == '\U{a0}' || c == '\U{1680}'
    || ('\U{2000}' <= c <= '\U{200a}')
    || c == '\U{2028}' || c == '\U{2029}' || c == '\U{202f}'
    || c == '\U{205f}' || c == '\U{3000}'
  }

  /** The characters at which Python `str.splitlines()` breaks a line
      (`\r\n` is taken as one break, see `SplitLines`). */
  predicate IsLineBreak(c: char) {
    || c == '\n' || c == '\r' || c == '\U{b}' || c == '\U{c}'
    || ('\U{1c}' <= c <= '\U{1e}')
    || c == '\U{85}' || c == '\U{2028}' || c == '\U{2029}'
  }

  predicate StartsWith(s: string, prefix: string) {
    |prefix| <= |s| && s[..|prefix|] == prefix
  }

  predicate EndsWith(s: string, suffix: string) {
    |suffix| <= |s| && s[|s| - |suffix|..] == suffix
  }

  /** `sub` occurs in `s` starting at index `i`. */
  predicate OccursAt(s: string, sub: string, i: int) {
    0 <= i <= |s| - |sub| && s[i..i + |sub|] == sub
  }

  /** Python `sub in s`. */
  predicate Contains(s: string, sub: string) {
    exists i | 0 <= i <= |s| - |sub| :: OccursAt(s, sub, i)
  }

  /** A text contains itself wherever it is embedded. */
  lemma ContainsInfix(a: string, sub: string, b: string)
    ensures Contains(a + sub + b, sub)
  {
    var s := a + sub + b;
    assert OccursAt(s, sub, |a|);
  }

  /** Every character of a substring occurs in the text, so one missing
      character rules a substring out. */
  lemma NotContainsByChar(s: string, sub: string, k: int)
    requires 0 <= k < |sub| && sub[k] !in s
    ensures !Contains(s, sub)
  {
    forall i | 0 <= i <= |s| - |sub|
      ensures !OccursAt(s, sub, i)
    {
      assert s[i..i + |sub|][k] == s[i + k];
    }
  }

  /** A substring of a text's suffix is a substring of the text. */
  lemma ContainsSuffix(s: string, j: int, sub: string)
    requires 0 <= j <= |s| && Contains(s[j..], sub)
    ensures Contains(s, sub)
  {
    var t := s[j..];
    var i :| 0 <= i <= |t| - |sub| && OccursAt(t, sub, i);
    assert s[j + i..j + i + |sub|] == t[i..i + |sub|];
    assert OccursAt(s, sub, j + i);
  }

  function LowerChar(c: char): char {
    if 'A' <= c <= 'Z' then (c as int + 32) as char else c
  }

  /** Python `str.lower()` on the ASCII letters. */
  function Lower(s: string): (r: string)
    ensures |r| == |s|
    ensures forall i :: 0 <= i < |s| ==> r[i] == LowerChar(s[i])
  {
    seq(|s|, i requires 0 <= i < |s| => LowerChar(s[i]))
  }

  /** Drops the leading characters satisfying `drop`. */
  function TrimLeft(s: string, drop: char -> bool): (r: string)
    ensures |r| <= |s| && r == s[|s| - |r|..]
    ensures forall i :: 0 <= i < |s| - |r| ==> drop(s[i])
    ensures r == [] || !drop(r[0])
    decreases |s|
  {
    if |s| > 0 && drop(s[0]) then TrimLeft(s[1..], drop) else s
  }

  /** Drops the trailing characters satisfying `drop`. */
  function TrimRight(s: string, drop: char -> bool): (r: string)
    ensures |r| <= |s| && r == s[..|r|]
    ensures forall i :: |r| <= i < |s| ==> drop(s[i])
    ensures r == [] || !drop(r[|r| - 1])
    decreases |s|
  {
    if |s| > 0 && drop(s[|s| - 1]) then TrimRight(s[..|s| - 1], drop) else s
  }

  /** Python `s.strip(chars)`, the characters given as a predicate. */
  function StripBy(s: string, drop: char -> bool): string {
    TrimRight(TrimLeft(s, drop), drop)
  }

  /** Every character of `s` before index `i` is whitespace. */
  predicate SpaceBefore(s: string, i: int) {
    forall k :: 0 <= k < i && k < |s| ==> IsSpace(s[k])
  }

  /** Every character of `s` from index `j` on is whitespace. */
  predicate SpaceFrom(s: string, j: int) {
    forall k :: 0 <= j <= k < |s| ==> IsSpace(s[k])
  }

  /** `r` is the slice `s[i..j]` and only whitespace lies outside it. */
  predicate Trimmed(s: string, r: string, i: int, j: int) {
    0 <= i <= j <= |s| && r == s[i..j] && SpaceBefore(s, i) && SpaceFrom(s, j)
  }

  /** Python `s.strip()`. */
  function Strip(s: string): (r: string)
    ensures |r| <= |s|
    ensures r == [] || (!IsSpace(r[0]) && !IsSpace(r[|r| - 1]))
    ensures exists i, j :: Trimmed(s, r, i, j)
  {
    StripFound(s);
    StripBy(s, IsSpace)
  }

  lemma StripFound(s: string)
    ensures exists i, j :: Trimmed(s, StripBy(s, IsSpace), i, j)
  {
    var t := TrimLeft(s, IsSpace);
    var r := TrimRight(t, IsSpace);
    assert r == StripBy(s, IsSpace);
    TrimLeftSpace(s);
    TrimRightSpace(t);
    StripTrims(s, |s| - |t|, r);
  }

  lemma StripTrims(s: string, i: int, r: string)
    requires 0 <= i <= |s| && SpaceBefore(s, i)
    requires |r| <= |s| - i && r == s[i..][..|r|] && SpaceFrom(s[i..], |r|)
    ensures Trimmed(s, r, i, i + |r|)
  {
    SpaceFromSuffix(s, i, |r|);
    assert r == s[i..i + |r|];
    TrimmedIntro(s, i, |r|);
  }

  lemma TrimmedIntro(s: string, i: int, n: int)
    requires 0 <= i && 0 <= n && i + n <= |s|
    requires SpaceBefore(s, i) && SpaceFrom(s, i + n)
    ensures Trimmed(s, s[i..i + n], i, i + n)
  {
  }

  /** Only whitespace follows what `TrimRight` keeps. */
  lemma TrimRightSpace(s: string)
    ensures SpaceFrom(s, |TrimRight(s, IsSpace)|)
  {
  }

  lemma SpaceFromSuffix(s: string, i: int, j: int)
    requires 0 <= i <= |s| && 0 <= j && SpaceFrom(s[i..], j)
    ensures SpaceFrom(s, i + j)
  {
    forall k | 0 <= i + j <= k < |s|
      ensures IsSpace(s[k])
    {
      assert s[k] == s[i..][k - i];
    }
  }

  /** Stripping text that starts and ends with a non-space character and
      is followed by whitespace leaves exactly that text. */
  lemma StripPadded(core: string, ws: string)
    requires core != [] && !IsSpace(core[0]) && !IsSpace(core[|core| - 1])
    requires forall k :: 0 <= k < |ws| ==> IsSpace(ws[k])
    ensures Strip(core + ws) == core
  {
    var s := core + ws;
    var r := Strip(s);
    var i, j :| Trimmed(s, r, i, j);
    assert s[0] == core[0] && s[|core| - 1] == core[|core| - 1];
    assert forall k :: |core| <= k < |s| ==> s[k] == ws[k - |core|];
    assert i == 0 && |core| <= j;
    assert r[|r| - 1] == s[j - 1];
    assert j == |core|;
  }

  /** Python `s.strip('"')`. */
  function StripQuotes(s: string): (r: string)
    ensures r == [] || (r[0] != '"' && r[|r| - 1] != '"')
  {
    StripBy(s, c => c == '"')
  }

  /** The index of the first `c` in `s`, or `|s|` when there is none. */
  function IndexOf(s: string, c: char): (i: nat)
    ensures i <= |s|
    ensures i < |s| ==> s[i] == c
    decreases |s|
  {
    if |s| == 0 || s[0] == c then 0 else 1 + IndexOf(s[1..], c)
  }

  lemma {:induction false} IndexOfFirst(s: string, c: char)
    ensures c !in s[..IndexOf(s, c)]
    decreases |s|
  {
    if |s| > 0 && s[0] != c {
      IndexOfFirst(s[1..], c);
      assert s[..IndexOf(s, c)] == [s[0]] + s[1..][..IndexOf(s[1..], c)];
    }
  }

  /** Python `s.split(c)` for a one-character separator: the pieces between
      consecutive separators, always at least one. */
  function Split(s: string, c: char): (parts: seq<string>)
    ensures |parts| >= 1
    decreases |s|
  {
    var i := IndexOf(s, c);
    if i == |s| then [s] else [s[..i]] + Split(s[i + 1..], c)
  }

  /** Python `sep.join(parts)`. */
  function Join(parts: seq<string>, sep: string): string
    decreases |parts|
  {
    if |parts| == 0 then ""
    else if |parts| == 1 then parts[0]
    else parts[0] + sep + Join(parts[1..], sep)
  }

  /** No piece of a split holds the separator. */
  lemma {:induction false} SplitPieces(s: string, c: char)
    ensures forall k :: 0 <= k < |Split(s, c)| ==> c !in Split(s, c)[k]
    decreases |s|
  {
    var i := IndexOf(s, c);
    IndexOfFirst(s, c);
    if i < |s| {
      SplitPieces(s[i + 1..], c);
    }
  }

  lemma {:induction false} IndexOfAfter(a: string, c: char, b: string)
    requires c !in a
    ensures IndexOf(a + [c] + b, c) == |a|
    decreases |a|
  {
    if |a| > 0 {
      assert (a + [c] + b)[1..] == a[1..] + [c] + b;
      IndexOfAfter(a[1..], c, b);
    }
  }

  lemma {:induction false} IndexOfAbsent(s: string, c: char)
    requires c !in s
    ensures IndexOf(s, c) == |s|
    decreases |s|
  {
    if |s| > 0 {
      IndexOfAbsent(s[1..], c);
    }
  }

  /** Joining the pieces of a split with the separator gives the text back. */
  lemma {:induction false} JoinSplit(s: string, c: char)
    ensures Join(Split(s, c), [c]) == s
    decreases |s|
  {
    var i := IndexOf(s, c);
    if i < |s| {
      JoinSplit(s[i + 1..], c);
      var parts, rest := Split(s, c), Split(s[i + 1..], c);
      assert parts == [s[..i]] + rest;
      assert parts[0] == s[..i] && parts[1..] == rest;
      assert Join(parts, [c]) == s[..i] + [c] + Join(rest, [c]);
      assert s == s[..i] + [c] + s[i + 1..];
    }
  }

  /** Splitting a join of separator-free pieces gives the pieces back. */
  lemma {:induction false} SplitJoin(parts: seq<string>, c: char)
    requires |parts| >= 1
    requires forall k :: 0 <= k < |parts| ==> c !in parts[k]
    ensures Split(Join(parts, [c]), c) == parts
    decreases |parts|
  {
    if |parts| == 1 {
      IndexOfAbsent(parts[0], c);
    } else {
      var rest := Join(parts[1..], [c]);
      IndexOfAfter(parts[0], c, rest);
      var s := parts[0] + [c] + rest;
      assert s[..|parts[0]|] == parts[0];
      assert s[|parts[0]| + 1..] == rest;
      SplitJoin(parts[1..], c);
    }
  }

  /** The text after the last `c` in `s`, or all of `s` when there is no `c`. */
  function AfterLast(s: string, c: char): (r: string)
    decreases |s|
  {
    var i := IndexOf(s, c);
    if i == |s| then s else AfterLast(s[i + 1..], c)
  }

  /** `AfterLast` is the longest separator-free suffix. */
  lemma {:induction false} AfterLastSuffix(s: string, c: char)
    ensures |AfterLast(s, c)| <= |s|
    ensures AfterLast(s, c) == s[|s| - |AfterLast(s, c)|..]
    ensures c !in AfterLast(s, c)
    ensures |AfterLast(s, c)| == |s| <==> c !in s
    ensures |AfterLast(s, c)| < |s| ==> s[|s| - |AfterLast(s, c)| - 1] == c
    decreases |s|
  {
    var i := IndexOf(s, c);
    IndexOfFirst(s, c);
    if i < |s| {
      var t := s[i + 1..];
      AfterLastSuffix(t, c);
      var a := AfterLast(t, c);
      assert AfterLast(s, c) == a;
      DropDrop(s, i + 1, |t| - |a|);
      assert s[i] == c;
      assert s[|s| - |a| - 1] == if |a| < |t| then t[|t| - |a| - 1] else s[i];
    } else {
      assert s[..i] == s;
    }
  }

  /** The text after a `c` that is followed by no other `c` is what comes
      after the last `c`. */
  lemma AfterLastOf(a: string, c: char, b: string)
    requires c !in b
    ensures AfterLast(a + [c] + b, c) == b
  {
    var s := a + [c] + b;
    AfterLastSuffix(s, c);
    var n := |AfterLast(s, c)|;
    NoneInSuffix(s, n, c);
    NoneAfter(a, c, b);
    assert s[|a|] == c;
    assert n == |b|;
  }

  /** No character of a suffix without `c` is `c`. */
  lemma NoneInSuffix(s: string, n: int, c: char)
    requires 0 <= n <= |s| && c !in s[|s| - n..]
    ensures forall k :: |s| - n <= k < |s| ==> s[k] != c
  {
    forall k | |s| - n <= k < |s|
      ensures s[k] != c
    {
      assert s[k] == s[|s| - n..][k - (|s| - n)];
    }
  }

  /** What follows the `c` in `a + [c] + b` is `b`, which holds no `c`. */
  lemma NoneAfter(a: string, c: char, b: string)
    requires c !in b
    ensures (a + [c] + b)[|a| + 1..] == b
    ensures forall k :: |a| < k < |a + [c] + b| ==> (a + [c] + b)[k] != c
  {
    var s := a + [c] + b;
    forall k | |a| < k < |s|
      ensures s[k] != c
    {
      assert s[k] == b[k - |a| - 1];
    }
  }

  /** Python `s.split(c)[-1]`. */
  lemma {:induction false} SplitLast(s: string, c: char)
    ensures Split(s, c)[|Split(s, c)| - 1] == AfterLast(s, c)
    decreases |s|
  {
    var i := IndexOf(s, c);
    if i < |s| {
      var t := s[i + 1..];
      var rest := Split(t, c);
      assert Split(s, c) == [s[..i]] + rest;
      LastOfCons(s[..i], rest);
      SplitLast(t, c);
    }
  }

  /** Python `s.rsplit(c, 1)[0]`: everything before the last `c`, or the
      whole text when there is no `c`. */
  function BeforeLast(s: string, c: char): (r: string)
    ensures c !in s ==> r == s
    ensures c in s ==> s == r + [c] + AfterLast(s, c)
  {
    AfterLastSuffix(s, c);
    var n := |AfterLast(s, c)|;
    if n == |s| then s else s[..|s| - n - 1]
  }

  /** Python `s.split()[0]`: the first maximal run of non-whitespace, or
      `None` where Python raises `IndexError` because there is no word. */
  function FirstWord(s: string): (r: Option<string>)
    ensures r.None? <==> forall i :: 0 <= i < |s| ==> IsSpace(s[i])
    ensures r.Some? ==> |r.value| > 0 && forall i :: 0 <= i < |r.value| ==> !IsSpace(r.value[i])
    ensures r.Some? ==> exists i :: WordAt(s, r.value, i)
  {
    var t := TrimLeft(s, IsSpace);
    TrimLeftAllSpace(s);
    if t == [] then None
    else
      FirstWordFound(s, t, WordEnd(t));
      Some(t[..WordEnd(t)])
  }

  /** `w` occurs at index `i` of `s`, with only whitespace before it and
      whitespace or the end of `s` right after it. */
  predicate WordAt(s: string, w: string, i: int) {
    0 <= i <= |s| - |w| && s[i..i + |w|] == w && SpaceBefore(s, i)
    && (i + |w| == |s| || IsSpace(s[i + |w|]))
  }

  lemma FirstWordFound(s: string, t: string, n: int)
    requires t == TrimLeft(s, IsSpace) && t != [] && n == WordEnd(t)
    ensures exists j :: WordAt(s, t[..n], j)
  {
    TrimLeftSpace(s);
    FirstWordAt(s, |s| - |t|, t, n);
  }

  lemma FirstWordAt(s: string, i: int, t: string, n: int)
    requires 0 <= i < |s| && t == s[i..] && SpaceBefore(s, i) && n == WordEnd(t)
    ensures WordAt(s, t[..n], i)
  {
    assert i + n < |s| ==> s[i + n] == t[n];
    assert t[..n] == s[i..i + n];
    WordAtIntro(s, i, n);
  }

  /** `TrimLeft` drops everything exactly when everything is whitespace. */
  lemma TrimLeftAllSpace(s: string)
    ensures TrimLeft(s, IsSpace) == [] <==> forall i :: 0 <= i < |s| ==> IsSpace(s[i])
  {
    var t := TrimLeft(s, IsSpace);
    if t != [] {
      assert s[|s| - |t|] == t[0];
    }
  }

  lemma WordAtIntro(s: string, i: int, n: int)
    requires 0 <= i && 0 <= n && i + n <= |s|
    requires SpaceBefore(s, i)
    requires i + n == |s| || IsSpace(s[i + n])
    ensures WordAt(s, s[i..i + n], i)
  {
  }

  /** Only whitespace precedes what `TrimLeft` keeps. */
  lemma TrimLeftSpace(s: string)
    ensures SpaceBefore(s, |s| - |TrimLeft(s, IsSpace)|)
  {
  }

  /** The index of the first whitespace character, or `|s|`. */
  function WordEnd(s: string): (i: nat)
    ensures i <= |s|
    ensures forall k :: 0 <= k < i ==> !IsSpace(s[k])
    ensures i < |s| ==> IsSpace(s[i])
    decreases |s|
  {
    if |s| == 0 || IsSpace(s[0]) then 0 else 1 + WordEnd(s[1..])
  }

  /** The index of the first line-break character, or `|s|`. */
  function LineEnd(s: string): (i: nat)
    ensures i <= |s|
    ensures i < |s| ==> IsLineBreak(s[i])
    decreases |s|
  {
    if |s| == 0 || IsLineBreak(s[0]) then 0 else 1 + LineEnd(s[1..])
  }

  predicate NoLineBreak(s: string) {
    forall k :: 0 <= k < |s| ==> !IsLineBreak(s[k])
  }

  /** The text before the first line break holds no line break. */
  lemma {:induction false} LineEndClean(s: string)
    ensures NoLineBreak(s[..LineEnd(s)])
    decreases |s|
  {
    if |s| > 0 && !IsLineBreak(s[0]) {
      LineEndClean(s[1..]);
      assert s[..LineEnd(s)] == [s[0]] + s[1..][..LineEnd(s[1..])];
    }
  }

  /** Python `s.splitlines()`: the lines without their terminators, no
      trailing empty line for a final terminator, `\r\n` one terminator. */
  function SplitLines(s: string): (lines: seq<string>)
    decreases |s|
  {
    if s == [] then []
    else
      var i := LineEnd(s);
      if i == |s| then [s]
      else
        var w := if s[i] == '\r' && i + 1 < |s| && s[i + 1] == '\n' then 2 else 1;
        [s[..i]] + SplitLines(s[i + w..])
  }

  /** Every line is free of line breaks, and only empty text has no
      lines. */
  lemma {:induction false} SplitLinesClean(s: string)
    ensures SplitLines(s) == [] <==> s == []
    ensures forall k :: 0 <= k < |SplitLines(s)| ==> NoLineBreak(SplitLines(s)[k])
    decreases |s|
  {
    if s != [] {
      var i := LineEnd(s);
      LineEndClean(s);
      if i < |s| {
        var w := if s[i] == '\r' && i + 1 < |s| && s[i + 1] == '\n' then 2 else 1;
        SplitLinesClean(s[i + w..]);
        SplitLinesAt(s, i, w);
      } else {
        assert s[..i] == s;
      }
    }
  }

  /** A line followed by `\n` is split off as one line. */
  lemma SplitLinesCons(line: string, rest: string)
    requires NoLineBreak(line)
    ensures SplitLines(line + "\n" + rest) == [line] + SplitLines(rest)
  {
    var s := line + "\n" + rest;
    assert s == line + ("\n" + rest);
    LineEndAt(line, "\n" + rest);
    assert s[|line|] == '\n';
    SplitLinesAt(s, |line|, 1);
    assert s[..|line|] == line;
    assert s[|line| + 1..] == rest;
  }

  /** One unfolding of `SplitLines` at its first line break. */
  lemma SplitLinesAt(s: string, i: int, w: int)
    requires 0 <= i < |s| && LineEnd(s) == i
    requires w == if s[i] == '\r' && i + 1 < |s| && s[i + 1] == '\n' then 2 else 1
    ensures SplitLines(s) == [s[..i]] + SplitLines(s[i + w..])
  {
  }

  lemma {:induction false} LineEndAt(a: string, b: string)
    requires NoLineBreak(a) && |b| > 0 && IsLineBreak(b[0])
    ensures LineEnd(a + b) == |a|
    decreases |a|
  {
    if |a| > 0 {
      assert (a + b)[1..] == a[1..] + b;
      LineEndAt(a[1..], b);
    }
  }

  /** Text that is empty or ends in a line break splits independently of
      what follows it (unless a `\r` would merge with a following `\n`). */
  lemma {:induction false} SplitLinesAppend(a: string, b: string)
    requires a == [] || IsLineBreak(a[|a| - 1])
    requires a == [] || b == [] || a[|a| - 1] != '\r' || b[0] != '\n'
    ensures SplitLines(a + b) == SplitLines(a) + SplitLines(b)
    decreases |a|
  {
    if a == [] {
      assert a + b == b;
    } else {
      var k := SplitLinesAppendStep(a, b);
      var a', first := a[k..], a[..LineEnd(a)];
      SplitLinesAppend(a', b);
      ConsAssoc(first, SplitLines(a'), SplitLines(b));
    }
  }

  /** One step of `SplitLinesAppend`: the first line of `a + b` is the first
      line of `a`, and the rest of `a` keeps the last character of `a`. */
  lemma SplitLinesAppendStep(a: string, b: string) returns (k: int)
    requires |a| > 0 && IsLineBreak(a[|a| - 1])
    requires b == [] || a[|a| - 1] != '\r' || b[0] != '\n'
    ensures 0 < k <= |a|
    ensures SplitLines(a) == [a[..LineEnd(a)]] + SplitLines(a[k..])
    ensures SplitLines(a + b) == [a[..LineEnd(a)]] + SplitLines(a[k..] + b)
    ensures a[k..] == [] || a[k..][|a[k..]| - 1] == a[|a| - 1]
  {
    var s := a + b;
    var i := LineEnd(a);
    LineEndPrefix(a, b);
    var w := if a[i] == '\r' && i + 1 < |a| && a[i + 1] == '\n' then 2 else 1;
    var w' := if s[i] == '\r' && i + 1 < |s| && s[i + 1] == '\n' then 2 else 1;
    assert w == w';
    k := i + w;
    SplitLinesAt(a, i, w);
    SplitLinesAt(s, i, w);
    assert s[..i] == a[..i];
    DropAppend(a, b, k);
    LastOfDrop(a, k);
  }

  lemma LastOfCons(x: string, rest: seq<string>)
    requires |rest| >= 1
    ensures ([x] + rest)[|[x] + rest| - 1] == rest[|rest| - 1]
  {
  }

  lemma DropDrop(s: string, i: int, j: int)
    requires 0 <= i <= |s| && 0 <= j <= |s| - i
    ensures s[i..][j..] == s[i + j..]
  {
  }

  lemma ConsAssoc(x: string, p: seq<string>, q: seq<string>)
    ensures [x] + (p + q) == ([x] + p) + q
  {
  }

  lemma LastOfDrop(a: string, k: int)
    requires 0 <= k <= |a|
    ensures a[k..] == [] || a[k..][|a[k..]| - 1] == a[|a| - 1]
  {
  }

  lemma DropAppend(a: string, b: string, k: int)
    requires 0 <= k <= |a|
    ensures (a + b)[k..] == a[k..] + b
  {
  }

  lemma {:induction false} LineEndPrefix(a: string, b: string)
    requires |a| > 0 && IsLineBreak(a[|a| - 1])
    ensures LineEnd(a) < |a| && LineEnd(a + b) == LineEnd(a)
    decreases |a|
  {
    if !IsLineBreak(a[0]) {
      assert (a + b)[1..] == a[1..] + b;
      LineEndPrefix(a[1..], b);
    }
  }

  /** The first break of a text is also the first break of any extension. */
  lemma {:induction false} LineEndExtend(a: string, b: string)
    requires LineEnd(a) < |a|
    ensures LineEnd(a + b) == LineEnd(a)
    decreases |a|
  {
    if !IsLineBreak(a[0]) {
      assert (a + b)[1..] == a[1..] + b;
      LineEndExtend(a[1..], b);
    }
  }

  /** `LineEnd` reaches the end exactly for text without a break. */
  lemma {:induction false} LineEndNone(s: string)
    ensures LineEnd(s) == |s| <==> NoLineBreak(s)
    decreases |s|
  {
    if |s| > 0 {
      LineEndNone(s[1..]);
      if NoLineBreak(s) {
        assert NoLineBreak(s[1..]) by {
          forall k | 0 <= k < |s[1..]|
            ensures !IsLineBreak(s[1..][k])
          {
            assert s[1..][k] == s[k + 1];
          }
        }
      }
      if !IsLineBreak(s[0]) && NoLineBreak(s[1..]) {
        forall k | 0 <= k < |s|
          ensures !IsLineBreak(s[k])
        {
          if k > 0 {
            assert s[k] == s[1..][k - 1];
          }
        }
      }
    }
  }

  /** Non-empty text without a break is one line. */
  lemma SplitLinesSingle(s: string)
    requires s != [] && NoLineBreak(s)
    ensures SplitLines(s) == [s]
  {
    LineEndNone(s);
  }

  /** A `\n` after text whose last character is not a break only ends
      the last line: it adds no line. */
  lemma {:induction false} SplitLinesTerminate(s: string)
    requires s != [] && !IsLineBreak(s[|s| - 1])
    ensures SplitLines(s + "\n") == SplitLines(s)
    decreases |s|
  {
    if LineEnd(s) == |s| {
      LineEndNone(s);
      SplitLinesCons(s, "");
      assert s + "\n" + "" == s + "\n";
    } else {
      var k := SplitLinesTerminateStep(s);
      SplitLinesTerminate(s[k..]);
    }
  }

  /** One step of `SplitLinesTerminate`: the first line is split off from
      both texts alike, and the rest keeps the last character. */
  lemma SplitLinesTerminateStep(s: string) returns (k: int)
    requires s != [] && !IsLineBreak(s[|s| - 1]) && LineEnd(s) < |s|
    ensures 0 < k < |s|
    ensures SplitLines(s) == [s[..LineEnd(s)]] + SplitLines(s[k..])
    ensures SplitLines(s + "\n") == [s[..LineEnd(s)]] + SplitLines(s[k..] + "\n")
    ensures s[k..][|s[k..]| - 1] == s[|s| - 1]
  {
    var t := s + "\n";
    var i := LineEnd(s);
    LineEndExtend(s, "\n");
    assert i + 1 < |s|;
    var w := if s[i] == '\r' && i + 1 < |s| && s[i + 1] == '\n' then 2 else 1;
    assert t[i] == s[i] && t[i + 1] == s[i + 1];
    k := i + w;
    SplitLinesAt(s, i, w);
    SplitLinesAt(t, i, w);
    assert t[..i] == s[..i];
    DropAppend(s, "\n", k);
    LastOfDrop(s, k);
  }
}

=== FILE: types.dfy ===
/** Shared vocabulary of the GPU-passthrough configurator model: optional
    values, results that carry the exceptions the Python code raises, the GPU
    vendors it recognises, and the commands a configuration plan is made of. */
module Types {

  datatype Option<+T> = None | Some(value: T)

  /** The exceptions of the source that the model keeps apart. */
  datatype Error =
    /** `ConfigurationError(message)`, the project's own exception. */
    | ConfigurationError(message: string)
    /** `subprocess.CalledProcessError` re-raised by `CommandExecutor.execute`. */
    | CommandFailed(command: Cmd)
    /** An `IndexError` from subscripting the result of `str.split`. */
    | IndexError
    /** An `AttributeError`: calling `.decode()` on `None`, or calling a
        method a class does not define. */
    | AttributeError
    /** A `ValueError` from unpacking a value into the wrong number of names. */
    | ValueError

  datatype Result<+T> = Ok(value: T) | Err(error: Error)

  /** The three values `hardware_info['gpu']['type']` takes besides `None`. */
  datatype Vendor = Intel | Amd | Nvidia {
    /** The lower-case string the Python code stores and compares. */
    function Name(): string {
      match this
      case Intel => "intel"
      case Amd => "amd"
      case Nvidia => "nvidia"
    }
  }

  /** One entry of `self.commands` or `self.rollback_commands`. The GRUB
      rewrite and its restore are not shell text in the source, so they are
      kept abstract. */
  datatype Cmd =
    | Shell(text: string)
    | ModifyGrub
    | RestoreGrub
}

=== FILE: vfio.dfy ===
/** `VFIO.ensure_vfio_modules`: add the VFIO kernel modules that are not yet
    listed in /etc/modules, one per line, by appending to the file. The
    file's text and the failure of the append are parameters. */
module Vfio {

  import opened Types
  import opened Strings

  /** `required_modules`, in order. */
  const RequiredModules: seq<string> := ["vfio", "vfio_iommu_type1", "vfio_pci"]

  /** Every failure is re-raised as this one. */
  const EnsureFailed := ConfigurationError("Failed to ensure VFIO modules.")

  /** The wanted modules that are not an exact line of the file, in the
      wanted order. */
  function Missing(present: seq<string>, wanted: seq<string>): (r: seq<string>)
    ensures |r| <= |wanted|
    ensures forall m :: m in r <==> m in wanted && m !in present
    decreases |wanted|
  {
    if wanted == [] then []
    else (if wanted[0] in present then [] else [wanted[0]]) + Missing(present, wanted[1..])
  }

  /** The text `f.write(f"{module}\n")` produces for each module in turn. */
  function Terminated(modules: seq<string>): (text: string)
    ensures |text| >= |modules|
    decreases |modules|
  {
    if modules == [] then [] else modules[0] + "\n" + Terminated(modules[1..])
  }

  /** What one run appends to the text it read. */
  function Appended(text: string): string {
    Terminated(Missing(SplitLines(text), RequiredModules))
  }

  /** No required module contains a line break. */
  lemma RequiredNoBreak()
    ensures forall k :: 0 <= k < |RequiredModules| ==> RequiredModules[k] != [] && NoLineBreak(RequiredModules[k])
  {
  }

  /** Lines without breaks written one per line split back into themselves. */
  lemma {:induction false} TerminatedLines(modules: seq<string>)
    requires forall k :: 0 <= k < |modules| ==> NoLineBreak(modules[k])
    ensures SplitLines(Terminated(modules)) == modules
    decreases |modules|
  {
    if modules != [] {
      TerminatedLines(modules[1..]);
      SplitLinesCons(modules[0], Terminated(modules[1..]));
    }
  }

  /** The appended text is empty or starts with a module name. */
  lemma AppendedStart(text: string)
    ensures Appended(text) == [] || Appended(text)[0] == 'v'
  {
    var ms := Missing(SplitLines(text), RequiredModules);
    if ms != [] {
      assert ms[0] in RequiredModules;
      assert Appended(text) == ms[0] + "\n" + Terminated(ms[1..]);
    }
  }

  /** Each wanted module is present after its missing ones are added. */
  lemma MissingCovered(present: seq<string>, wanted: seq<string>)
    ensures Missing(present + Missing(present, wanted), wanted) == []
  {
    var all := present + Missing(present, wanted);
    MissingNone(all, wanted);
  }

  lemma {:induction false} MissingNone(present: seq<string>, wanted: seq<string>)
    requires forall m :: m in wanted ==> m in present
    ensures Missing(present, wanted) == []
    decreases |wanted|
  {
    if wanted != [] {
      assert wanted[0] in present;
      MissingNone(present, wanted[1..]);
    }
  }

  /** Presence is whole-line equality: a commented line does not count. */
  lemma CommentedLineNotPresent()
    ensures "vfio_pci" in Missing(["vfio_pci # x"], RequiredModules)
  {
    assert "vfio_pci" != "vfio_pci # x" by {
      assert |"vfio_pci"| != |"vfio_pci # x"|;
    }
    assert RequiredModules[2] == "vfio_pci";
  }

  /** `ensure_vfio_modules` as written: the missing modules are appended
      right after the existing text. `text` is `None` when the file cannot
      be read, and `appendFails` when it cannot be opened for appending.
      What the append does to the file's lines is stated by
      `AppendKeepsLines`, `GluesLastLine` and `SecondRunAsWrittenAddsNothing`. */
  function EnsureVfioModulesAsWritten(text: Option<string>, appendFails: bool): (r: Result<string>)
    ensures text.None? || appendFails <==> r == Err(EnsureFailed)
    ensures r.Ok? ==> r.value == text.value + Appended(text.value)
  {
    if text.None? || appendFails then Err(EnsureFailed)
    else Ok(text.value + Appended(text.value))
  }

  /** Where the text read is empty or ends in a line break, a second run
      appends nothing. */
  lemma SecondRunAsWrittenAddsNothing(text: string)
    requires text == [] || IsLineBreak(text[|text| - 1])
    ensures var once := EnsureVfioModulesAsWritten(Some(text), false).value;
      Appended(once) == [] && EnsureVfioModulesAsWritten(Some(once), false) == Ok(once)
  {
    var once := text + Appended(text);
    AppendKeepsLines(text);
    MissingCovered(SplitLines(text), RequiredModules);
    assert Appended(once) == Terminated([]);
    assert once + [] == once;
  }

  /** Appending after text that ends in a line break keeps every line and
      adds the missing modules. */
  lemma AppendKeepsLines(text: string)
    requires text == [] || IsLineBreak(text[|text| - 1])
    ensures SplitLines(text + Appended(text)) == SplitLines(text) + Missing(SplitLines(text), RequiredModules)
  {
    AppendedStart(text);
    AppendedLines(text);
    SplitLinesAppend(text, Appended(text));
  }

  /** An unterminated last line is glued to the first appended module. */
  lemma {:induction false} GluesLastLine(line: string, modules: seq<string>)
    requires NoLineBreak(line) && |modules| >= 1
    requires forall k :: 0 <= k < |modules| ==> NoLineBreak(modules[k])
    ensures SplitLines(line + Terminated(modules)) == [line + modules[0]] + modules[1..]
  {
    assert NoLineBreak(line + modules[0]) by {
      forall k | 0 <= k < |line + modules[0]|
        ensures !IsLineBreak((line + modules[0])[k])
      {
        if k >= |line| {
          assert (line + modules[0])[k] == modules[0][k - |line|];
        }
      }
    }
    assert line + Terminated(modules) == (line + modules[0]) + "\n" + Terminated(modules[1..]);
    SplitLinesCons(line + modules[0], Terminated(modules[1..]));
    TerminatedLines(modules[1..]);
  }

  /** A file holding just `vfio_pci` without a final newline loses that
      line: the run writes `vfio` right after it. */
  lemma AsWrittenLosesUnterminatedLine()
    ensures SplitLines("vfio_pci") == ["vfio_pci"]
    ensures "vfio_pci" !in SplitLines(EnsureVfioModulesAsWritten(Some("vfio_pci"), false).value)
  {
    RequiredNoBreak();
    assert "vfio_pci" == RequiredModules[2];
    SplitLinesSingle("vfio_pci");
    AsWrittenPciLines("vfio_pci");
    assert |"vfio_pci"| != |"vfio_pci" + "vfio"| && |"vfio_pci"| != |"vfio_iommu_type1"|;
  }

  /** The lines of /etc/modules after the as-written run on a file holding
      the one unterminated line `vfio_pci`. */
  lemma AsWrittenPciLines(line: string)
    requires line == "vfio_pci"
    ensures SplitLines(EnsureVfioModulesAsWritten(Some(line), false).value)
         == [line + "vfio", "vfio_iommu_type1"]
  {
    AsWrittenPciText(line);
    RequiredNoBreak();
    assert line == RequiredModules[2];
    GluedPci(line);
  }

  lemma AsWrittenPciText(line: string)
    requires line == "vfio_pci"
    ensures EnsureVfioModulesAsWritten(Some(line), false).value == line + Terminated(["vfio", "vfio_iommu_type1"])
  {
    MissingGivenPci(line);
  }

  lemma GluedPci(line: string)
    requires NoLineBreak(line)
    ensures SplitLines(line + Terminated(["vfio", "vfio_iommu_type1"])) == [line + "vfio", "vfio_iommu_type1"]
  {
    var ms := ["vfio", "vfio_iommu_type1"];
    assert ms[0] == RequiredModules[0] && ms[1] == RequiredModules[1];
    RequiredNoBreak();
    GluesLastLine(line, ms);
  }

  /** A file holding only `vfio_pci` lacks the other two modules. */
  lemma MissingGivenPci(line: string)
    requires line == "vfio_pci"
    ensures Missing(SplitLines(line), RequiredModules) == ["vfio", "vfio_iommu_type1"]
  {
    RequiredNoBreak();
    assert line == RequiredModules[2];
    SplitLinesSingle(line);
    assert |"vfio"| != |line| && |"vfio_iommu_type1"| != |line|;
    MissingThree([line], "vfio", "vfio_iommu_type1", line);
  }

  /** Of three wanted modules, the two absent ones are missing. */
  lemma MissingThree(present: seq<string>, a: string, b: string, c: string)
    requires a !in present && b !in present && c in present
    ensures Missing(present, [a, b, c]) == [a, b]
  {
    assert [c][1..] == [];
    assert Missing(present, [c]) == [];
    assert [b, c][1..] == [c];
    assert Missing(present, [b, c]) == [b];
    assert [a, b, c][1..] == [b, c];
  }

  /** The text as read, ended with a newline when its last line is not. */
  function EnsureTerminated(text: string): (r: string)
    ensures r == [] || IsLineBreak(r[|r| - 1])
    ensures r == text || r == text + "\n"
  {
    if text == [] || IsLineBreak(text[|text| - 1]) then text else text + "\n"
  }

  /** `ensure_vfio_modules` with a newline written first when the file does
      not end with one, so that every existing line is kept, as
      `EnsureKeepsLines` and `SecondRunAddsNothing` state. */
  function EnsureVfioModules(text: Option<string>, appendFails: bool): (r: Result<string>)
    ensures text.None? || appendFails <==> r == Err(EnsureFailed)
    ensures r.Ok? ==> r.value == EnsureTerminated(text.value) + Appended(text.value)
  {
    if text.None? || appendFails then Err(EnsureFailed)
    else Ok(EnsureTerminated(text.value) + Appended(text.value))
  }

  /** The corrected run keeps every line of the file and adds exactly the
      missing modules after them, for any text. */
  lemma EnsureKeepsLines(text: string)
    ensures SplitLines(EnsureVfioModules(Some(text), false).value)
         == SplitLines(text) + Missing(SplitLines(text), RequiredModules)
  {
    var t := EnsureTerminated(text);
    var app := Appended(text);
    TerminatingKeepsLines(text);
    AppendedLines(text);
    AppendedStart(text);
    SplitLinesAppend(t, app);
  }

  /** Ending the text with a newline adds no line. */
  lemma TerminatingKeepsLines(text: string)
    ensures SplitLines(EnsureTerminated(text)) == SplitLines(text)
  {
    if EnsureTerminated(text) != text {
      SplitLinesTerminate(text);
    }
  }

  /** The appended text splits into the missing modules. */
  lemma AppendedLines(text: string)
    ensures SplitLines(Appended(text)) == Missing(SplitLines(text), RequiredModules)
  {
    RequiredNoBreak();
    TerminatedLines(Missing(SplitLines(text), RequiredModules));
  }

  /** With the correction a second run appends nothing, whatever the file
      ended with. */
  lemma SecondRunAddsNothing(text: string)
    ensures var once := EnsureVfioModules(Some(text), false).value;
      Appended(once) == [] && EnsureVfioModules(Some(once), false) == Ok(once)
  {
    var once := EnsureVfioModules(Some(text), false).value;
    EnsureKeepsLines(text);
    MissingCovered(SplitLines(text), RequiredModules);
    assert Appended(once) == Terminated([]);
    OnceTerminated(text);
    assert once + [] == once;
  }

  /** The corrected run leaves the file ending in a line break. */
  lemma OnceTerminated(text: string)
    ensures var once := EnsureVfioModules(Some(text), false).value;
      EnsureTerminated(once) == once
  {
    var t := EnsureTerminated(text);
    var app := Appended(text);
    var once := EnsureVfioModules(Some(text), false).value;
    assert once == t + app;
    AppendedEnds(text);
    EndsAfterAppend(t, app);
    TerminatedFixed(once);
  }

  /** Text already ending in a line break is left as it is. */
  lemma TerminatedFixed(s: string)
    requires s == [] || IsLineBreak(s[|s| - 1])
    ensures EnsureTerminated(s) == s
  {
  }

  /** What a run appends is empty or ends with a newline. */
  lemma AppendedEnds(text: string)
    ensures Appended(text) == [] || Appended(text)[|Appended(text)| - 1] == '\n'
  {
    var ms := Missing(SplitLines(text), RequiredModules);
    if ms != [] {
      TerminatedEnds(ms);
    }
  }

  /** Appending text that ends in a newline to text that ends in a line
      break keeps the result ending in a line break. */
  lemma EndsAfterAppend(t: string, app: string)
    requires t == [] || IsLineBreak(t[|t| - 1])
    requires app == [] || app[|app| - 1] == '\n'
    ensures t + app == [] || IsLineBreak((t + app)[|t + app| - 1])
  {
    if app == [] {
      assert t + app == t;
    } else {
      assert (t + app)[|t + app| - 1] == app[|app| - 1];
    }
  }

  /** Text written one module per line ends with a newline. */
  lemma {:induction false} TerminatedEnds(modules: seq<string>)
    requires modules != []
    ensures Terminated(modules)[|Terminated(modules)| - 1] == '\n'
    decreases |modules|
  {
    if |modules| > 1 {
      TerminatedEnds(modules[1..]);
    }
  }
}
